=== FILE: README.md ===
# Snake board decompressor, modelled in Dafny

This project models the run-length board decoder of the snake game
(`snake/src/game_setup.c`). The decoder reads a string such as
`B2x2|W1E1|E1S1`:

- a header token `B<height>x<width>`;
- then one `|`-separated row token per board row;
- each row token is a list of runs `<symbol><count>`, where the symbol is one of
  `W` (wall), `E` (plain), `G` (grass) or `S` (snake).

The decoder produces either a flat board of `height * width` cells, its size and
the flat index of the snake's head, or exactly one of three error codes: a bad
character, a wrong snake count, or incorrect dimensions.

The model is functional. The input is a `seq<char>` and the board is an
immutable `seq<Cell>`. Each C routine becomes a pure function:

| module | file | models |
|---|---|---|
| `Text` | `text.dfy` | digits, the numbers `strtol`/`atoi` read from a digit prefix, `strchr`-style search |
| `Tokenize` | `tokens.dfy` | the token list `strtok(…, "\|")` hands out, and the inverse that joins tokens |
| `Header` | `header.dfy` | `set_dimensions`, and the header an encoder writes |
| `Cells` | `cells.dfy` | cell kinds, error codes, `get_cell_pos`, `fill_cells` |
| `Runs` | `runs.dfy` | the run scanner's single step, a row read as runs, run text, snake counting |
| `Decoder` | `decoder.dfy` | `decompress_board_str`: the run loop, the row loop, the final checks, the head search |
| `Layout` | `layout.dfy` | what a board string means, independent of the loops, and the theorems tying the loops to it |
| `Outcomes` | `outcomes.dfy` | caller-facing consequences: success shape, cell addressing, which malformation yields which code |
| `Encoder` | `encoder.dfy` | a run-length encoder for boards, proved to be decoded back exactly |
| `Examples` | `examples.dfy` | concrete strings and their outcomes |

`Decoder.Decode` reports which check refused the input as a `Check` tag (for
example `RowOverflow` or `ShortRow`). `Decoder.Decompress` keeps only the error
code. This lets the model state the order in which the source's checks fire.
For example, the total-cell checks (lines 259 and 290) can never be the check
that refuses an input.

While a board is being built, its cells are `seq<Option<Cell>>`, where `None`
means not yet written. The invariant `WrittenUpTo` says that exactly the
positions before the write cursor have been written. `Layout.Holds` says that
the written prefix is a given sequence of cells and that the snake counter
counts its snakes.

The reference meaning is `Layout.WellFormed` and `Layout.Spelled`: the header
parses, there are exactly `height` row tokens, each row token reads as
acceptable runs summing to `width`, and there is exactly one snake cell. The
main theorem, `Layout.DecodeMeaning`, says the decoder accepts exactly the
well-formed strings, and that it then returns the spelled board, the header's
size, and the index of the snake cell.

The comment above `decompress_board_str` (lines 186-189) describes the format
loosely. Where it and the code differ, the model follows the code:

- A run count of `0` is accepted for `W`, `E` and `G`, since there is no
  positivity check. `S0` is refused by the filler's one-cell snake rule.
- Any character, including a digit or a lower-case letter, is taken as a run
  symbol. Only `W`, `E`, `G` and `S` are accepted by the filler.
- The header's height is the digit prefix after `B`. Its width is the digit
  prefix after the first `x`. Anything after the width's digits is ignored.
- Tokens are split the way `strtok` splits them: runs of `|` collapse, and
  leading or trailing separators yield no empty token.

## Model

| member | source | states |
|---|---|---|
| Header.SetDimensions | snake/src/game_setup.c:40-60 | the header is refused iff it is empty, does not start with `B`, has no `x`, or the digits after `B` or after the first `x` read as zero; otherwise the height is the value of the digit prefix after `B` and the width that of the digit prefix after the first `x`, both positive |
| Header.SetDimensionsOfHeader | snake/src/game_setup.c:40-60 | a header written as `B<h>x<w>` for positive h and w, even with a non-digit tail, is parsed back to exactly (h, w) |
| Text.Value | snake/src/game_setup.c:250 | the number `atoi` reads from the collected digits is zero exactly when every digit is `0` (its value on every spelling is fixed by `Text.LeadingNumberOfShow` through `Show`) |
| Text.LeadingNumber | snake/src/game_setup.c:52-53 | the number `strtol` reads is zero when the text does not start with a digit, and otherwise zero exactly when the leading digit run is all `0`s, so `B00x2` is refused like `B0x2` (its value is fixed by `Text.LeadingNumberOfShow` and used by `Header.SetDimensions`) |
| Text.LeadingNumberOfShow | snake/src/game_setup.c:52-53 | reading the leading number of a number's decimal spelling followed by a non-digit gives the number back, and the digit run ends exactly at the spelling's end |
| Text.DigitRunEnd | snake/src/game_setup.c:239-242 | the digit-collecting loop stops at the end of the maximal digit run: everything before is a digit and the character it stops at is not |
| Text.IndexOf | snake/src/game_setup.c:46 | the `x` search returns the first position at or after the start holding the character, or the length when there is none |
| Tokenize.Tokens | snake/src/game_setup.c:200-223 | every token is non-empty and separator-free, and the tokens laid end to end are the input with its separators deleted |
| Tokenize.TokensSplit | snake/src/game_setup.c:200-223 | the tokens of `a`, a separator, then `b` are the tokens of `a` followed by the tokens of `b`, so runs of separators collapse and separators at either end give no empty token |
| Tokenize.TokensOfPiece | snake/src/game_setup.c:200-223 | a stretch without separators is a single token, or no token when it is empty |
| Tokenize.TokensOfPrefixed | snake/src/game_setup.c:200-223 | tokenizing proper tokens joined with one leading separator each gives the same tokens back |
| Tokenize.TokensOfJoined | snake/src/game_setup.c:200-223 | a header followed by separator-led row tokens tokenizes to the header then the rows |
| Cells.Kind | snake/src/game_setup.c:69-88 | a symbol stands for a cell kind iff it is one of `W`, `E`, `G`, `S`, and it is the snake kind iff it is `S` |
| Cells.Symbol | snake/src/game_setup.c:69-88 | the symbol written for a kind reads back as that kind and is neither a digit nor a separator |
| Cells.CellPos | snake/src/game_setup.c:62-64 | for a column inside the width, the flat index lies in that row's block of width cells (`Cells.CellPosCoords` and `Outcomes.PictureAt` recover the coordinates and the cell stored there) |
| Cells.CellPosCoords | snake/src/game_setup.c:62-64 | for a column inside the width, division and remainder of the flat index by the width give back the row and the column |
| Cells.FillCells | snake/src/game_setup.c:66-95 | `S` with a count other than one is a wrong snake count and an unknown symbol a bad character (both iff), and every other run succeeds; on either error no cell is written and the counter is unchanged; on success exactly positions [start, start+count) hold the kind, all others are unchanged, and the counter rises by one iff the symbol is `S` |
| Runs.NextRun | snake/src/game_setup.c:234-250 | no run iff the symbol is not followed by a digit (including a token ending after it); otherwise the run's symbol is the first character, its count the value of the maximal digit run after it, and the rest begins with a non-digit |
| Runs.NextRunOfEncoded | snake/src/game_setup.c:234-250 | scanning a written run off the front of a text gives back the run and the rest |
| Runs.ParseRunsOfEncoded | snake/src/game_setup.c:233-273 | reading a written row of runs back as runs gives the same runs |
| Runs.SnakeCountAppend | snake/src/game_setup.c:296 | the snake count of two boards laid end to end is the sum of their counts |
| Decoder.ScanRun | snake/src/game_setup.c:234-272 | one pass of the run loop stops with a missing count, row overflow, total overflow, unknown symbol or long snake run exactly under the listed conditions, checked in that order; otherwise it accepts the run, advances the row count and cursor by its count, and keeps the written region contiguous (which cells it writes is stated by `Layout.ScanRunMeaning`) |
| Decoder.ScanRow | snake/src/game_setup.c:233-273 | the run loop over a row token keeps the written region contiguous, never takes the row past its width, moves the cursor by exactly the row cells added, and stops only on a run-loop check |
| Decoder.ScanRows | snake/src/game_setup.c:223-282 | the row loop keeps the written region contiguous, counts exactly the row tokens it reads and never more than the height, and stops only on a run-loop check, an extra row or a short row |
| Decoder.FirstSnake | snake/src/game_setup.c:302-307 | the head search returns the first snake cell at or after the start, or the board length when there is none |
| Decoder.Start | snake/src/game_setup.c:218-221 | before the first row nothing is written and the cursor is at zero |
| Decoder.Decode | snake/src/game_setup.c:191-317 | an accepted board has positive height and width and exactly height times width cells |
| Decoder.Decompress | snake/src/game_setup.c:191-317 | success iff the decode is accepted; a failure carries the error code of the check that refused the input; a board has height times width cells |
| Decoder.ErrorOf | snake/src/game_setup.c:42-299 | a refusing check maps to the bad-character code exactly for a missing token, a refused header, a missing count or an unknown symbol (lines 42-56, 87, 203, 215, 247), to the wrong-snake-count code exactly for a long snake run or a snake tally other than one (lines 81, 299), and to incorrect dimensions otherwise (lines 227, 256, 262, 278, 287, 293); `Outcomes.ErrorCodes` lists the codes of the row-loop checks |
| Layout.ScanRunMeaning | snake/src/game_setup.c:250-272 | from a progress holding a prefix of cells, the total-cell check does not fire while the row fits, and an accepted run is written right after the prefix with the snake counter updated |
| Layout.ScanRunStops | snake/src/game_setup.c:244-270 | when a pass of the run loop stops, the rest of the row token does not read as acceptable runs fitting the row |
| Layout.ScanRunAdvances | snake/src/game_setup.c:250-272 | an accepted pass consumes input, keeps the loop invariant, and the row token fits iff its unread rest fits in what is left of the row |
| Layout.RowFitsStep | snake/src/game_setup.c:233-273 | a row token fits iff its first run is acceptable and fits and the rest fits in what is left; its cells are the first run's cells followed by the rest's |
| Layout.ScanRowMeaning | snake/src/game_setup.c:230-279 | the run loop gets through a row token iff the token reads as acceptable runs fitting the row; it then adds exactly the token's cells after the prefix and its width to the row count; it never stops on the total-cell check |
| Layout.WideRow | snake/src/game_setup.c:233-272 | a row token that reads as acceptable runs covering more cells than are left in the row stops the run loop on the row-width check |
| Layout.WideRowAt | snake/src/game_setup.c:233-272 | row i of the board, reached with the rows before it written, stops on the row-width check when its acceptable runs add up to more than the width |
| Layout.NarrowRowAt | snake/src/game_setup.c:233-279 | row i of the board, reached with the rows before it written, is scanned to fewer cells than the width when its acceptable runs add up to less than the width |
| Layout.ScanFirstRow | snake/src/game_setup.c:230-281 | with `row_count * width` cells written, a row token is taken (scanned to exactly the width) iff it decodes to exactly the width, and the cursor then equals `(row_count + 1) * width` |
| Layout.ScanRowsStep | snake/src/game_setup.c:275-281 | a row decoding to exactly the width advances the row loop to the next token with its cells appended and the row count raised by one |
| Layout.ScanRowsSkip | snake/src/game_setup.c:223-282 | the row loop from the start, after `i` rows each decoding to the width, is the loop from row `i` with their picture written |
| Layout.ExtraRowRefused | snake/src/game_setup.c:223-228 | after height row tokens that each decode to the width, the row loop stops on the extra-row check before reading the next token, whatever it holds |
| Layout.ScanBoardMeaning | snake/src/game_setup.c:223-282 | the row loop gets through all row tokens iff there are at most height of them and each decodes to exactly the width; it then counts them and holds their picture; once height good rows are read, the next token is refused as an extra row whatever it holds; the loop never stops on the total-cell check |
| Layout.SnakeCountZero | snake/src/game_setup.c:296-307 | the snake count is zero iff no cell is a snake |
| Layout.SnakeHeadUnique | snake/src/game_setup.c:296-307 | with exactly one snake cell, the head search finds it and it is the only index holding a snake |
| Layout.DecodeMeaning | snake/src/game_setup.c:191-317 | the decoder accepts iff the string is well formed; then the board is the one the rows spell, the size is the header's and the head is the snake's index; neither total-cell check ever refuses an input |
| Outcomes.PictureAt | snake/src/game_setup.c:62-64 | the cell at flat index `row * width + col` of a board of well-formed rows is column `col` of row token `row` |
| Outcomes.SuccessIffWellFormed | snake/src/game_setup.c:191-317 | the decompressor succeeds iff the string is well formed: a valid header, exactly height row tokens each decoding to exactly the width, and exactly one snake cell |
| Outcomes.SuccessBoard | snake/src/game_setup.c:191-317 | on a well-formed string the result is the board the row tokens spell, the header's width and height, and the index of the first snake cell as head |
| Outcomes.SuccessShape | snake/src/game_setup.c:284-307 | on success the string is well formed, there are height row tokens each decoding to the width, the board has height times width cells and the head is the one and only snake cell |
| Outcomes.CellAt | snake/src/game_setup.c:223-282 | on success the board cell at (row, col) is column col of the cells that row token `row` spells |
| Outcomes.HeaderFailure | snake/src/game_setup.c:200-210 | no token at all, or a refused header, is a bad character |
| Outcomes.ExtraRowFailure | snake/src/game_setup.c:223-228 | a row token after the height good rows the header announces makes the string incorrect dimensions, whatever that token holds |
| Outcomes.WideRowFailure | snake/src/game_setup.c:233-272 | after rows that each decode to the width, a row token that reads as acceptable runs adding up to more than the width makes the string incorrect dimensions |
| Outcomes.NarrowRowFailure | snake/src/game_setup.c:233-279 | after rows that each decode to the width, a row token that reads as acceptable runs adding up to less than the width makes the string incorrect dimensions |
| Outcomes.RowCountFailure | snake/src/game_setup.c:223-288 | row tokens that each decode to the width but are more or fewer than the height give incorrect dimensions |
| Outcomes.SnakeTallyFailure | snake/src/game_setup.c:296-300 | the right rows with zero or several snake cells give a wrong snake count |
| Outcomes.RowsStopAt | snake/src/game_setup.c:223-279 | after `i` rows that each decode to the width, row `i` alone decides whether and why the row loop stops |
| Outcomes.RowsReachRow | snake/src/game_setup.c:223-282 | after `i` rows that each decode to the width, the row loop from the start is the loop from row `i` with those rows' cells written and the row count at `i` |
| Outcomes.RowFailure | snake/src/game_setup.c:233-273 | after rows that each decode to the width, a row on which the run loop stops makes the string fail with that check's error code, whatever follows |
| Outcomes.ShortRowFailure | snake/src/game_setup.c:275-279 | after rows that each decode to the width, a row whose runs fall short of the width gives incorrect dimensions |
| Encoder.Compress | snake/src/game_setup.c:186-189 | the runs written for a row have known symbols, are acceptable to the filler, have positive counts, and hold no digit or separator symbols |
| Encoder.ExpandCompress | snake/src/game_setup.c:186-189 | the runs written for a row expand back to the row |
| Encoder.CompressMaximal | snake/src/game_setup.c:186-189 | neighbouring written runs have different symbols unless both are snake runs |
| Encoder.RowText | snake/src/game_setup.c:233-273 | the text written for a row reads back as its runs and holds no separator |
| Encoder.RowTextsMeaning | snake/src/game_setup.c:223-282 | the row tokens written for a board are proper tokens, each decodes to the width, and together they spell the board |
| Encoder.EncodeRoundTrip | snake/src/game_setup.c:191-317 | every board with positive size and exactly one snake cell, once encoded, decompresses to the same board, size and snake index |
| Examples.TwoCellRow | snake/src/game_setup.c:233-273 | a row token of two one-cell runs of known symbols decodes to exactly two cells of those kinds |
| Examples.ThreeTokens | snake/src/game_setup.c:200-223 | a header and two row tokens joined with separators tokenize back to those three |
| Examples.TwoByTwo | snake/src/game_setup.c:191-317 | a two-by-two board of one-cell runs succeeds with its four cells when it has one snake, and is a wrong snake count otherwise |
| Examples.DecodesExample | snake/src/game_setup.c:191-317 | `B2x2\|W1E1\|E1S1` decodes to wall, plain, plain, snake with size two by two and head 3 |
| Examples.OneSnakeLast | snake/src/game_setup.c:302-307 | the board wall, plain, plain, snake has one snake, found at index 3 |
| Examples.TwoSnakesExample | snake/src/game_setup.c:296-300 | `B2x2\|S1E1\|E1S1`, with two snake runs, is a wrong snake count |
| Examples.OverflowRow | snake/src/game_setup.c:251-257 | a second run of two cells after one cell overflows a row of width two |
| Examples.FirstRowStops | snake/src/game_setup.c:233-273 | a first row on which the run loop stops decides the error code |
| Examples.RowOverflowExample | snake/src/game_setup.c:251-257 | `B2x2\|W1E2\|E1S1` is incorrect dimensions |
| Examples.UnknownRow | snake/src/game_setup.c:265-270 | a second run with an unknown symbol stops the run loop on the filler's symbol check |
| Examples.SecondOfTwoStops | snake/src/game_setup.c:223-282 | after a good first row, a second row on which the run loop stops decides the error code |
| Examples.UnknownSymbolExample | snake/src/game_setup.c:86-87 | `B2x2\|W1E1\|E1X1` is a bad character |
| Examples.OneRowOfTwo | snake/src/game_setup.c:284-288 | a single good row under a header whose height is not one is incorrect dimensions |
| Examples.MissingRowExample | snake/src/game_setup.c:284-288 | `B2x2\|W1S1` is incorrect dimensions |
| Examples.LongRun | snake/src/game_setup.c:251-257 | a five-cell run overflows a two-cell row whatever its symbol |
| Examples.CheckOrderExample | snake/src/game_setup.c:251-265 | `B1x2\|X5` is incorrect dimensions, not a bad character: the width check fires before the filler sees the unknown symbol |
| Examples.ZeroHeightHeader | snake/src/game_setup.c:55-57 | the header `B0x2` is refused |
| Examples.RefusedHeader | snake/src/game_setup.c:206-210 | a refused header makes the string a bad character whatever follows |
| Examples.ZeroHeightExample | snake/src/game_setup.c:55-57 | `B0x2\|W1S1` is a bad character |
| Examples.ExtraRowExample | snake/src/game_setup.c:223-228 | `B1x2\|W1S1\|X` is incorrect dimensions, not a bad character: the extra token is refused unread |
| Examples.CollapsedSeparators | snake/src/game_setup.c:200-223 | a header, a doubled separator, a row and a trailing separator tokenize to just the header and the row |

## Left out

- `initialize_game` and the process-wide game state it resets (direction, score,
  game-over flag, food placement). The snake head is returned as a value
  instead of being stored in a global. The reset of the pending direction on
  success (line 309) is likewise not modelled.
- `initialize_default_board`: it is a fixed literal layout with no decision logic.
- Memory handling: `malloc`, `strcpy`, `free`, and the allocation-failure path
  that returns a bad character (lines 194-195 and 212-216). The all-or-nothing
  outcome is the `Result` datatype: a failure carries no board.
- `strtok`'s hidden static state: the model uses the pure token list.
- Machine arithmetic: integers are unbounded. This leaves out:
  - overflow of `atoi` and `strtol`;
  - the 20-byte digit buffer (lines 237-241), which overflows on digit runs of 20 or more;
  - `int` and `size_t` wrap-around in `width * height`, in `row * width + col`, and in the cursor.
- `strtol`'s skipping of leading white space and its acceptance of a sign. The
  model reads only a leading digit prefix.
- The C string terminator: the input is the characters before it, so an embedded NUL is not special.
- The unused `snake_p` parameter, and the bit values of the cell flags. Cells are
  a datatype of four kinds. The head search's `cells[i] & FLAG_SNAKE` test becomes
  a comparison with `Snake`. This is equivalent because the decoder sets exactly
  one flag per cell.
- The character-code macros at lines 12-21, which the decoder does not use. The symbol switch in `fill_cells` accepts only the upper-case letters.

=== FILE: cells.dfy ===
/** Cell kinds, the decoder's error codes, flat indexing (`get_cell_pos`) and
    the cell filler (`fill_cells`). */
module Cells {

  /** The four cell kinds the decoder writes; the source encodes them as bit
      flags of which the decoder only ever sets one. */
  datatype Cell = Wall | Plain | Grass | Snake

  /** The three failure codes of `enum board_init_status`. */
  datatype InitError = BadChar | WrongSnakeCount | IncorrectDimensions

  datatype Option<T> = None | Some(value: T)

  /** The cell kind a run symbol stands for. Only the upper-case letters are
      symbols; every other character, a digit or a lower-case letter
      included, stands for nothing. */
  function Kind(sym: char): (k: Option<Cell>)
    ensures k.Some? <==> sym == 'W' || sym == 'E' || sym == 'G' || sym == 'S'
    ensures k == Some(Snake) <==> sym == 'S'
  {
    match sym
    case 'W' => Some(Wall)
    case 'E' => Some(Plain)
    case 'G' => Some(Grass)
    case 'S' => Some(Snake)
    case _ => None
  }

  /** The symbol an encoder writes for a cell kind; Kind reads it back. */
  function Symbol(c: Cell): (sym: char)
    ensures Kind(sym) == Some(c)
    ensures sym != '|' && !('0' <= sym <= '9')
  {
    match c
    case Wall => 'W'
    case Plain => 'E'
    case Grass => 'G'
    case Snake => 'S'
  }

  /** Distinct kinds have distinct symbols. */
  lemma {:induction false} SymbolInjective(a: Cell, b: Cell)
    ensures Symbol(a) == Symbol(b) ==> a == b
  {
    assert Kind(Symbol(a)) == Some(a) && Kind(Symbol(b)) == Some(b);
  }

  /** Flat index of the cell at (`row`, `col`) on a board `width` cells
      wide: the board is laid out row after row. */
  function CellPos(row: nat, col: nat, width: nat): (pos: nat)
    ensures col < width ==> row * width <= pos < row * width + width
  {
    row * width + col
  }

  /** For an in-range column, division and remainder by the width recover
      the coordinates from the flat index, so no two cells share one. */
  lemma {:induction false} CellPosCoords(row: nat, col: nat, width: nat)
    requires col < width
    ensures CellPos(row, col, width) / width == row && CellPos(row, col, width) % width == col
  {
    DivModUnique(CellPos(row, col, width), width, row, col);
  }

  lemma {:induction false} DivModUnique(n: nat, d: nat, q: nat, r: nat)
    requires r < d && n == q * d + r
    ensures n / d == q && n % d == r
  {
    var q', r' := n / d, n % d;
    if q' < q {
      Distribute(q', q - q', d);
      MulAtLeast(q - q', d);
    } else if q < q' {
      Distribute(q, q' - q, d);
      MulAtLeast(q' - q, d);
    }
  }

  lemma {:induction false} Distribute(a: nat, b: nat, d: nat)
    ensures (a + b) * d == a * d + b * d
  {
  }

  /** One row further down is one board width further on. */
  lemma {:induction false} CellPosNext(row: nat, col: nat, width: nat)
    ensures CellPos(row + 1, col, width) == width + CellPos(row, col, width)
  {
    Distribute(row, 1, width);
  }

  lemma {:induction false} MulAtLeast(a: nat, d: nat)
    requires 1 <= a
    ensures d <= a * d
  {
  }

  /** What `fill_cells` hands back: its status, and the cells and snake
      counter as the caller sees them afterwards. */
  datatype Fill = Fill(error: Option<InitError>, cells: seq<Option<Cell>>, snakes: nat)

  /** Writes `count` copies of the kind `sym` stands for from `start` on. A
      snake run must be exactly one cell long and bumps the snake counter by
      one; an unknown symbol is BadChar; every other run is written. A
      refused run writes nothing and leaves the counter alone. The caller
      keeps the run inside the array. */
  function FillCells(cells: seq<Option<Cell>>, start: nat, count: nat, sym: char, snakes: nat): (r: Fill)
    requires start + count <= |cells|
    ensures r.error == Some(WrongSnakeCount) <==> sym == 'S' && count != 1
    ensures r.error == Some(BadChar) <==> Kind(sym).None?
    ensures r.error.None? <==> Kind(sym).Some? && (sym == 'S' ==> count == 1)
    ensures r.error.Some? ==> r.cells == cells && r.snakes == snakes
    ensures r.error.None? ==> |r.cells| == |cells|
    ensures r.error.None? ==>
      forall k :: 0 <= k < |cells| ==>
        r.cells[k] == if start <= k < start + count then Kind(sym) else cells[k]
    ensures r.error.None? ==> r.snakes == if sym == 'S' then snakes + 1 else snakes
  {
    match Kind(sym)
    case None => Fill(Some(BadChar), cells, snakes)
    case Some(kind) =>
      if kind == Snake && count != 1 then Fill(Some(WrongSnakeCount), cells, snakes)
      else
        var written := cells[..start] + seq(count, _ => Some(kind)) + cells[start + count..];
        Fill(None, written, if kind == Snake then snakes + 1 else snakes)
  }
}

=== FILE: decoder.dfy ===
/** The board assembler (`decompress_board_str`): tokenizes the compressed
    string, parses the header, scans every row token run by run into the cell
    array, and checks row widths, the row count, the total cell count and the
    snake tally in the order the source checks them. */
module Decoder {
  import opened Text
  import opened Tokenize
  import opened Header
  import opened Cells
  import opened Runs

  /** The checks that can end a decode, in source order. Decode reports which
      one fired so that the order of the checks can be reasoned about;
      Decompress keeps only the error code. */
  datatype Check =
    | NoToken            // no token at all
    | HeaderRejected     // set_dimensions refused the header
    | ExtraRow           // a row token beyond the declared height
    | MissingCount       // a symbol not followed by digits
    | RowOverflow        // a run takes the row past its width
    | TotalOverflow      // a run takes the board past height*width cells
    | UnknownSymbol      // fill_cells: symbol outside W, E, G, S
    | SnakeRun           // fill_cells: a snake run not exactly one long
    | ShortRow           // a row ends short of its width
    | RowCountMismatch   // fewer row tokens than the declared height
    | TotalMismatch      // filled cells differ from height*width
    | SnakeTally         // snake runs on the board other than one

  /** The checks made by one pass of the run loop. */
  predicate InRunLoop(c: Check) {
    c.MissingCount? || c.RowOverflow? || c.TotalOverflow? || c.UnknownSymbol? || c.SnakeRun?
  }

  /** The checks made inside the loop over the row tokens. */
  predicate InRowLoop(c: Check) {
    InRunLoop(c) || c.ExtraRow? || c.ShortRow?
  }

  /** The code `decompress_board_str` returns when a check refuses. */
  function ErrorOf(c: Check): (e: InitError)
    ensures e == BadChar <==> c.NoToken? || c.HeaderRejected? || c.MissingCount? || c.UnknownSymbol?
    ensures e == WrongSnakeCount <==> c.SnakeRun? || c.SnakeTally?
  {
    match c
    case NoToken | HeaderRejected | MissingCount | UnknownSymbol => BadChar
    case SnakeRun | SnakeTally => WrongSnakeCount
    case ExtraRow | RowOverflow | TotalOverflow | ShortRow | RowCountMismatch | TotalMismatch =>
      IncorrectDimensions
  }

  /** The cell array under construction (None: not yet written), the next
      flat position to write, and the snake counter. */
  datatype Progress = Progress(cells: seq<Option<Cell>>, pos: nat, snakes: nat)

  /** Exactly the positions before `pos` have been written. */
  predicate WrittenUpTo(cells: seq<Option<Cell>>, pos: nat) {
    && pos <= |cells|
    && forall k :: 0 <= k < |cells| ==> (cells[k].Some? <==> k < pos)
  }

  /** What one pass of the run loop leaves: the unread rest of the token,
      the row's cell count and the progress, or the check that stopped it. */
  datatype Step = Next(rest: seq<char>, rowCells: nat, p: Progress) | Stop(at: Check)

  /** One pass of the run-scanning loop on the unread, non-empty part `t` of
      a row token, `rowCells` cells of the row being filled. The checks fire
      in this order: the count must be present, the row must not overflow
      its width, the board must not overflow its total, then the filler must
      accept the run. An accepted run is written at the current position,
      which advances by its count. */
  function ScanRun(t: seq<char>, width: nat, total: nat, rowCells: nat, p: Progress): (s: Step)
    requires 0 < |t| && |p.cells| == total && WrittenUpTo(p.cells, p.pos)
    requires rowCells <= width
    ensures s == Stop(MissingCount) <==> NextRun(t).None?
    ensures s == Stop(RowOverflow) <==> NextRun(t).Some? && width < rowCells + NextRun(t).value.0.count
    ensures s == Stop(TotalOverflow) <==>
      && NextRun(t).Some?
      && rowCells + NextRun(t).value.0.count <= width
      && total < p.pos + NextRun(t).value.0.count
    ensures s == Stop(UnknownSymbol) <==>
      && NextRun(t).Some?
      && rowCells + NextRun(t).value.0.count <= width
      && p.pos + NextRun(t).value.0.count <= total
      && Kind(NextRun(t).value.0.sym).None?
    ensures s == Stop(SnakeRun) <==>
      && NextRun(t).Some?
      && rowCells + NextRun(t).value.0.count <= width
      && p.pos + NextRun(t).value.0.count <= total
      && NextRun(t).value.0.sym == 'S' && NextRun(t).value.0.count != 1
    ensures s.Stop? ==> InRunLoop(s.at)
    ensures s.Next? <==>
      && NextRun(t).Some?
      && rowCells + NextRun(t).value.0.count <= width
      && p.pos + NextRun(t).value.0.count <= total
      && ValidRun(NextRun(t).value.0)
    ensures s.Next? ==> s.rest == NextRun(t).value.1 && s.rowCells == rowCells + NextRun(t).value.0.count
    ensures s.Next? ==> |s.p.cells| == total && WrittenUpTo(s.p.cells, s.p.pos)
    ensures s.Next? ==> rowCells <= s.rowCells <= width && s.p.pos == p.pos + (s.rowCells - rowCells)
  {
    if NextRun(t).None? then Stop(MissingCount)
    else
      var (run, rest) := NextRun(t).value;
      if rowCells + run.count > width then Stop(RowOverflow)
      else if p.pos + run.count > total then Stop(TotalOverflow)
      else
        var f := FillCells(p.cells, p.pos, run.count, run.sym, p.snakes);
        if f.error == Some(BadChar) then Stop(UnknownSymbol)
        else if f.error == Some(WrongSnakeCount) then Stop(SnakeRun)
        else Next(rest, rowCells + run.count, Progress(f.cells, p.pos + run.count, f.snakes))
  }

  datatype RowOutcome = RowScanned(rowCells: nat, p: Progress) | RowStopped(at: Check)

  /** The run-scanning loop over one row token: passes until the token is
      used up or a check stops it. The written region grows contiguously. */
  function ScanRow(t: seq<char>, width: nat, total: nat, rowCells: nat, p: Progress): (r: RowOutcome)
    requires |p.cells| == total && WrittenUpTo(p.cells, p.pos)
    requires rowCells <= width
    ensures r.RowScanned? ==> |r.p.cells| == total && WrittenUpTo(r.p.cells, r.p.pos)
    ensures r.RowScanned? ==> rowCells <= r.rowCells <= width
    ensures r.RowScanned? ==> r.p.pos == p.pos + (r.rowCells - rowCells)
    ensures r.RowStopped? ==> InRunLoop(r.at)
    decreases |t|
  {
    if |t| == 0 then RowScanned(rowCells, p)
    else match ScanRun(t, width, total, rowCells, p)
      case Stop(at) => RowStopped(at)
      case Next(rest, rowCells', p') => ScanRow(rest, width, total, rowCells', p')
  }

  datatype RowsOutcome = RowsScanned(rowCount: nat, p: Progress) | RowsStopped(at: Check)

  /** The loop over the row tokens, `rowCount` rows having been read. A row
      token beyond the height is refused before it is scanned; a row whose
      runs stop short of the width is refused after. */
  function ScanRows(rows: seq<seq<char>>, height: nat, width: nat, rowCount: nat, p: Progress): (r: RowsOutcome)
    requires |p.cells| == height * width && WrittenUpTo(p.cells, p.pos)
    ensures r.RowsScanned? ==> |r.p.cells| == height * width && WrittenUpTo(r.p.cells, r.p.pos)
    ensures r.RowsScanned? ==> r.rowCount == rowCount + |rows| <= height || (|rows| == 0 && r.rowCount == rowCount)
    ensures r.RowsStopped? ==> InRowLoop(r.at)
    decreases |rows|
  {
    if |rows| == 0 then RowsScanned(rowCount, p)
    else if rowCount >= height then RowsStopped(ExtraRow)
    else match ScanRow(rows[0], width, height * width, 0, p)
      case RowStopped(at) => RowsStopped(at)
      case RowScanned(rowCells, p') =>
        if rowCells != width then RowsStopped(ShortRow)
        else ScanRows(rows[1..], height, width, rowCount + 1, p')
  }

  /** The finished array, once every position has been written. */
  function Board(cells: seq<Option<Cell>>): (b: seq<Cell>)
    requires forall k :: 0 <= k < |cells| ==> cells[k].Some?
    ensures |b| == |cells| && forall k :: 0 <= k < |cells| ==> cells[k] == Some(b[k])
  {
    seq(|cells|, k requires 0 <= k < |cells| => cells[k].value)
  }

  /** The head search: the first index at or after `i` holding the snake, or
      |b| when there is none. */
  function FirstSnake(b: seq<Cell>, i: nat): (h: nat)
    requires i <= |b|
    ensures i <= h <= |b|
    ensures forall k :: i <= k < h ==> b[k] != Snake
    ensures h < |b| ==> b[h] == Snake
    decreases |b| - i
  {
    if i == |b| || b[i] == Snake then i else FirstSnake(b, i + 1)
  }

  datatype Outcome =
    | Accepted(board: seq<Cell>, width: nat, height: nat, head: nat)
    | Rejected(at: Check)

  /** The progress before the first row: nothing written, no snake seen. */
  function Start(total: nat): (p: Progress)
    ensures |p.cells| == total && WrittenUpTo(p.cells, p.pos) && p.pos == 0
  {
    Progress(seq(total, _ => None), 0, 0)
  }

  /** The whole decode, reporting which check refused the input. */
  function Decode(s: seq<char>): (r: Outcome)
    ensures r.Accepted? ==> 0 < r.height && 0 < r.width && |r.board| == r.height * r.width
  {
    var tokens := Tokens(s);
    if |tokens| == 0 then Rejected(NoToken)
    else match SetDimensions(tokens[0])
      case BadHeader => Rejected(HeaderRejected)
      case Dims(height, width) =>
        var total := height * width;
        match ScanRows(tokens[1..], height, width, 0, Start(total))
        case RowsStopped(at) => Rejected(at)
        case RowsScanned(rowCount, p) =>
          if rowCount != height then Rejected(RowCountMismatch)
          else if p.pos != total then Rejected(TotalMismatch)
          else if p.snakes != 1 then Rejected(SnakeTally)
          else
            var board := Board(p.cells);
            Accepted(board, width, height, FirstSnake(board, 0))
  }

  datatype Result =
    | Success(board: seq<Cell>, width: nat, height: nat, head: nat)
    | Failure(error: InitError)

  /** `decompress_board_str`: a board, its size and the snake head's flat
      index, or one error code and no board. */
  function Decompress(s: seq<char>): (r: Result)
    ensures r.Success? <==> Decode(s).Accepted?
    ensures r.Failure? ==> r.error == ErrorOf(Decode(s).at)
    ensures r.Success? ==> 0 < r.height && 0 < r.width && |r.board| == r.height * r.width
  {
    match Decode(s)
    case Accepted(board, width, height, head) => Success(board, width, height, head)
    case Rejected(at) => Failure(ErrorOf(at))
  }
}

=== FILE: encoder.dfy ===
/** The inverse of the decoder: writing a board out in the compressed format.
    Equal neighbouring cells are merged into one run, except snake cells,
    which the format only accepts one per run. Decoding what the encoder
    writes gives the board back with its head at the snake cell. */
module Encoder {
  import opened Text
  import opened Tokenize
  import opened Header
  import opened Cells
  import opened Runs
  import opened Decoder
  import opened Layout

  /** One past the end of the block of cells equal to the first one, the
      cells before `i` being known to belong to it. */
  function BlockEnd(row: seq<Cell>, i: nat): (j: nat)
    requires 1 <= i <= |row|
    ensures i <= j <= |row|
    ensures forall k :: i <= k < j ==> row[k] == row[0]
    ensures j < |row| ==> row[j] != row[0]
    decreases |row| - i
  {
    if i < |row| && row[i] == row[0] then BlockEnd(row, i + 1) else i
  }

  /** The runs of one row: each maximal block of equal non-snake cells
      becomes one run, each snake cell a run of its own. */
  function Compress(row: seq<Cell>): (runs: seq<Run>)
    ensures Known(runs) && AllValid(runs) && NoDigitSymbols(runs)
    ensures forall k :: 0 <= k < |runs| ==> 0 < runs[k].count && runs[k].sym != Sep
    decreases |row|
  {
    if |row| == 0 then []
    else
      var n := if row[0] == Snake then 1 else BlockEnd(row, 1);
      var rest := Compress(row[n..]);
      var runs := [Run(Symbol(row[0]), n)] + rest;
      assert forall k :: 1 <= k < |runs| ==> runs[k] == rest[k - 1];
      runs
  }

  /** Expanding the runs of a row gives the row back. */
  lemma {:induction false} ExpandCompress(row: seq<Cell>)
    ensures Expand(Compress(row)) == row
    decreases |row|
  {
    if |row| > 0 {
      var n := if row[0] == Snake then 1 else BlockEnd(row, 1);
      ExpandCompressStep(row, n);
      ExpandCompress(row[n..]);
      Concatenated(row, n);
    }
  }

  /** The first run the compressor writes expands to the leading block. */
  lemma {:induction false} ExpandCompressStep(row: seq<Cell>, n: nat)
    requires 0 < |row| && n == if row[0] == Snake then 1 else BlockEnd(row, 1)
    ensures Expand(Compress(row)) == row[..n] + Expand(Compress(row[n..]))
  {
    var rest := Compress(row[n..]);
    var runs := Compress(row);
    assert runs[0] == Run(Symbol(row[0]), n) && runs[1..] == rest;
    assert seq(n, _ => row[0]) == row[..n];
  }

  lemma {:induction false} Concatenated<T>(s: seq<T>, n: nat)
    requires n <= |s|
    ensures s[..n] + s[n..] == s
  {
  }

  /** Neighbouring runs differ in kind unless both are snake cells. */
  predicate Maximal(runs: seq<Run>) {
    forall k :: 0 <= k < |runs| - 1 ==> runs[k].sym != runs[k + 1].sym || runs[k].sym == 'S'
  }

  lemma {:induction false} MaximalCons(run: Run, rest: seq<Run>)
    requires Maximal(rest)
    requires 0 < |rest| && run.sym != 'S' ==> run.sym != rest[0].sym
    ensures Maximal([run] + rest)
  {
    var runs := [run] + rest;
    forall k | 0 <= k < |runs| - 1
      ensures runs[k].sym != runs[k + 1].sym || runs[k].sym == 'S'
    {
      if k > 0 {
        assert runs[k] == rest[k - 1] && runs[k + 1] == rest[k];
      }
    }
  }

  /** The blocks the compressor writes are maximal: no two neighbouring
      runs could have been merged. */
  lemma {:induction false} CompressMaximal(row: seq<Cell>)
    ensures Maximal(Compress(row))
    decreases |row|
  {
    if |row| > 0 {
      var n := if row[0] == Snake then 1 else BlockEnd(row, 1);
      var rest := Compress(row[n..]);
      CompressMaximal(row[n..]);
      if 0 < |rest| && row[0] != Snake {
        ExpandCompress(row[n..]);
        assert Expand(rest)[0] == row[n];
        assert Kind(rest[0].sym) == Some(row[n]);
        SymbolInjective(row[0], row[n]);
      }
      MaximalCons(Run(Symbol(row[0]), n), rest);
    }
  }

  /** The text of one row. */
  function RowText(row: seq<Cell>): (t: seq<char>)
    ensures ParseRuns(t) == Some(Compress(row))
    ensures Sep !in t
  {
    ParseRunsOfEncoded(Compress(row));
    EncodeRunsHasNo(Compress(row), Sep);
    EncodeRuns(Compress(row))
  }

  /** A non-empty row has a non-empty text. */
  lemma {:induction false} RowTextNonEmpty(row: seq<Cell>)
    requires 0 < |row|
    ensures 0 < |RowText(row)|
  {
    var runs := Compress(row);
    assert 0 < |runs|;
    assert EncodeRuns(runs) == EncodeRun(runs[0]) + EncodeRuns(runs[1..]);
  }

  /** The row texts of a board `height` rows of `width` cells, top row first. */
  function RowTexts(board: seq<Cell>, width: nat, height: nat): (rows: seq<seq<char>>)
    requires |board| == height * width
    ensures |rows| == height
    decreases height
  {
    if height == 0 then []
    else
      Distribute(1, height - 1, width);
      [RowText(board[..width])] + RowTexts(board[width..], width, height - 1)
  }

  /** The row texts are proper row tokens, each decoding to its row; laid
      end to end they give the board back. */
  lemma {:induction false} RowTextsMeaning(board: seq<Cell>, width: nat, height: nat)
    requires 0 < width && |board| == height * width
    ensures ProperTokens(RowTexts(board, width, height))
    ensures RowsOk(RowTexts(board, width, height), width)
    ensures Picture(RowTexts(board, width, height), width) == board
    decreases height
  {
    if height > 0 {
      Distribute(1, height - 1, width);
      var rows := RowTexts(board, width, height);
      var row := board[..width];
      var tail := RowTexts(board[width..], width, height - 1);
      RowTextsMeaning(board[width..], width, height - 1);
      assert rows[0] == RowText(row) && rows[1..] == tail;
      RowTextNonEmpty(row);
      ProperTokensCons(rows);
      ExpandCompress(row);
      assert RowOk(rows[0], width);
      RowsOkTail(rows, width);
      assert Picture(rows, width) == row + board[width..];
      Concatenated(board, width);
    }
  }

  lemma {:induction false} ProperTokensCons(ts: seq<seq<char>>)
    requires 0 < |ts| && 0 < |ts[0]| && Sep !in ts[0] && ProperTokens(ts[1..])
    ensures ProperTokens(ts)
  {
    forall k | 0 < k < |ts|
      ensures 0 < |ts[k]| && Sep !in ts[k]
    {
      assert ts[k] == ts[1..][k - 1];
    }
  }

  /** The compressed string of a board: its header, then its rows. */
  function Encode(board: seq<Cell>, width: nat, height: nat): seq<char>
    requires |board| == height * width
  {
    HeaderOf(height, width) + Prefixed(RowTexts(board, width, height))
  }

  /** The codec round trip: a board of positive size with exactly one snake
      cell, written out and decompressed, comes back unchanged, with its size
      and with the head at its snake cell. */
  lemma {:induction false} EncodeRoundTrip(board: seq<Cell>, width: nat, height: nat)
    requires 0 < width && 0 < height && |board| == height * width
    requires SnakeCount(board) == 1
    ensures Decompress(Encode(board, width, height)) == Success(board, width, height, FirstSnake(board, 0))
  {
    var s := Encode(board, width, height);
    var head := HeaderOf(height, width);
    var rows := RowTexts(board, width, height);
    RowTextsMeaning(board, width, height);
    ShowHasNo(height, Sep);
    ShowHasNo(width, Sep);
    assert Sep !in head;
    TokensOfJoined(head, rows);
    SetDimensionsOfHeader(height, width, []);
    assert head + [] == head;
    assert Tokens(s)[0] == head && Tokens(s)[1..] == rows;
    assert WellFormed(s);
    DecodeMeaning(s);
  }
}

=== FILE: examples.dfy ===
/** Worked strings: one board that decodes, and one string for each way the
    decoder can refuse its input, including the order in which the run
    checks fire. */
module Examples {
  import opened Text
  import opened Tokenize
  import opened Header
  import opened Cells
  import opened Runs
  import opened Decoder
  import opened Layout
  import opened Encoder
  import opened Outcomes

  // Reading the pieces.

  lemma {:induction false} ShowSmall()
    ensures Show(0) == "0" && Show(1) == "1" && Show(2) == "2" && Show(5) == "5"
  {
  }

  /** The text of two one-cell runs. */
  lemma {:induction false} TwoRunsText(x: char, y: char)
    ensures EncodeRuns([Run(x, 1), Run(y, 1)]) == [x, '1', y, '1']
  {
    ShowSmall();
    var runs := [Run(x, 1), Run(y, 1)];
    assert runs[1..] == [Run(y, 1)] && [Run(y, 1)][1..] == [];
    assert EncodeRuns([Run(y, 1)]) == [y, '1'] + [];
  }

  /** A header followed by two row tokens, glued with separators. */
  lemma {:induction false} JoinTwo(head: seq<char>, a: seq<char>, b: seq<char>)
    ensures head + Prefixed([a, b]) == head + [Sep] + a + [Sep] + b
  {
    assert [a, b][1..] == [b] && [b][1..] == [];
    assert Prefixed([b]) == [Sep] + b + [];
    assert Prefixed([a, b]) == [Sep] + a + ([Sep] + b);
  }

  /** A header followed by one row token. */
  lemma {:induction false} JoinOne(head: seq<char>, a: seq<char>)
    ensures head + Prefixed([a]) == head + [Sep] + a
  {
    assert [a][1..] == [];
    assert Prefixed([a]) == [Sep] + a + [];
  }

  /** A row of two known one-cell runs decodes to those two cells. */
  lemma {:induction false} TwoCellRow(t: seq<char>, x: char, y: char)
    requires Kind(x).Some? && Kind(y).Some?
    requires t == [x, '1', y, '1']
    ensures 0 < |t| && Sep !in t
    ensures RowOk(t, 2)
    ensures RowCells(t) == [Kind(x).value, Kind(y).value]
  {
    var runs := [Run(x, 1), Run(y, 1)];
    TwoRunsText(x, y);
    assert NoDigitSymbols(runs);
    ParseRunsOfEncoded(runs);
    assert runs[1..] == [Run(y, 1)] && [Run(y, 1)][1..] == [];
    assert Width([Run(y, 1)]) == 1;
    assert Expand([Run(y, 1)]) == [Kind(y).value] + [];
    assert Expand(runs) == [Kind(x).value] + [Kind(y).value];
  }

  /** Tokenizing a header and two row tokens glued with separators. */
  lemma {:induction false} ThreeTokens(s: seq<char>, head: seq<char>, a: seq<char>, b: seq<char>)
    requires 0 < |head| && Sep !in head && 0 < |a| && Sep !in a && 0 < |b| && Sep !in b
    requires s == head + [Sep] + a + [Sep] + b
    ensures Tokens(s) == [head, a, b]
  {
    JoinTwo(head, a, b);
    TokensOfJoined(head, [a, b]);
  }

  /** Tokenizing a header and one row token. */
  lemma {:induction false} TwoTokens(s: seq<char>, head: seq<char>, a: seq<char>)
    requires 0 < |head| && Sep !in head && 0 < |a| && Sep !in a
    requires s == head + [Sep] + a
    ensures Tokens(s) == [head, a]
  {
    JoinOne(head, a);
    TokensOfJoined(head, [a]);
  }

  lemma {:induction false} HeaderTwoByTwo(tok: seq<char>)
    requires tok == "B2x2"
    ensures SetDimensions(tok) == Dims(2, 2) && 0 < |tok| && Sep !in tok
  {
    ShowSmall();
    SetDimensionsOfHeader(2, 2, []);
    assert HeaderOf(2, 2) + [] == tok;
  }

  lemma {:induction false} HeaderOneByTwo(tok: seq<char>)
    requires tok == "B1x2"
    ensures SetDimensions(tok) == Dims(1, 2) && 0 < |tok| && Sep !in tok
  {
    ShowSmall();
    SetDimensionsOfHeader(1, 2, []);
    assert HeaderOf(1, 2) + [] == tok;
  }

  /** Two row tokens of the width lay out as the first row's cells then the
      second's. */
  lemma {:induction false} TwoRows(rows: seq<seq<char>>, width: nat)
    requires |rows| == 2 && RowOk(rows[0], width) && RowOk(rows[1], width)
    ensures RowsOk(rows, width)
    ensures Picture(rows, width) == RowCells(rows[0]) + RowCells(rows[1])
  {
    assert rows[1..][0] == rows[1] && rows[1..][1..] == [];
    EmptyAround(RowCells(rows[1]));
  }

  /** The tokens of a two-by-two board of one-cell runs: a two-by-two
      header and two rows of two cells each. */
  lemma {:induction false} TwoByTwoTokens(s: seq<char>, head: seq<char>, x1: char, y1: char, x2: char, y2: char)
    requires Kind(x1).Some? && Kind(y1).Some? && Kind(x2).Some? && Kind(y2).Some?
    requires SetDimensions(head) == Dims(2, 2) && 0 < |head| && Sep !in head
    requires s == head + [Sep] + [x1, '1', y1, '1'] + [Sep] + [x2, '1', y2, '1']
    ensures 0 < |Tokens(s)| && SetDimensions(Tokens(s)[0]) == Dims(2, 2) && |Tokens(s)| == 3
    ensures RowsOk(Tokens(s)[1..], 2)
    ensures Picture(Tokens(s)[1..], 2) == [Kind(x1).value, Kind(y1).value, Kind(x2).value, Kind(y2).value]
  {
    var a, b := [x1, '1', y1, '1'], [x2, '1', y2, '1'];
    TwoCellRow(a, x1, y1);
    TwoCellRow(b, x2, y2);
    ThreeTokens(s, head, a, b);
    assert Tokens(s)[1..] == [a, b];
    TwoRows([a, b], 2);
  }

  /** A two-by-two board of one-cell runs: it decodes to its four cells
      when exactly one of them is the snake, and is a wrong snake count
      otherwise. */
  lemma {:induction false} TwoByTwo(s: seq<char>, head: seq<char>, x1: char, y1: char, x2: char, y2: char)
    requires Kind(x1).Some? && Kind(y1).Some? && Kind(x2).Some? && Kind(y2).Some?
    requires SetDimensions(head) == Dims(2, 2) && 0 < |head| && Sep !in head
    requires s == head + [Sep] + [x1, '1', y1, '1'] + [Sep] + [x2, '1', y2, '1']
    ensures
      var cells := [Kind(x1).value, Kind(y1).value, Kind(x2).value, Kind(y2).value];
      && (SnakeCount(cells) == 1 ==> Decompress(s) == Success(cells, 2, 2, FirstSnake(cells, 0)))
      && (SnakeCount(cells) != 1 ==> Decompress(s) == Failure(WrongSnakeCount))
  {
    TwoByTwoTokens(s, head, x1, y1, x2, y2);
    var cells := [Kind(x1).value, Kind(y1).value, Kind(x2).value, Kind(y2).value];
    if SnakeCount(cells) == 1 {
      assert WellFormed(s);
      DecodeMeaning(s);
    } else {
      SnakeTallyFailure(s);
    }
  }

  /** `B2x2|W1E1|E1S1` is a wall and a plain cell over a plain cell and the
      snake, whose head is the last cell. */
  lemma {:induction false} DecodesExample(s: seq<char>)
    requires s == "B2x2|W1E1|E1S1"
    ensures Decompress(s) == Success([Wall, Plain, Plain, Snake], 2, 2, 3)
  {
    assert s == "B2x2" + [Sep] + "W1E1" + [Sep] + "E1S1";
    HeaderTwoByTwo("B2x2");
    TwoByTwo(s, "B2x2", 'W', 'E', 'E', 'S');
    OneSnakeLast([Wall, Plain, Plain, Snake]);
  }

  lemma {:induction false} OneSnakeLast(b: seq<Cell>)
    requires b == [Wall, Plain, Plain, Snake]
    ensures SnakeCount(b) == 1 && FirstSnake(b, 0) == 3
  {
    assert b[3..] == [Snake] && b[3..][1..] == [];
    assert SnakeCount(b[3..]) == 1;
    assert b[2..][1..] == b[3..] && SnakeCount(b[2..]) == 1;
    assert b[1..][1..] == b[2..] && SnakeCount(b[1..]) == 1;
    assert FirstSnake(b, 3) == 3 && FirstSnake(b, 2) == 3 && FirstSnake(b, 1) == 3;
  }

  /** Every row fits but the board holds two snake cells: a wrong snake
      count. */
  lemma {:induction false} TwoSnakesExample(s: seq<char>)
    requires s == "B2x2|S1E1|E1S1"
    ensures Decompress(s) == Failure(WrongSnakeCount)
  {
    assert s == "B2x2" + [Sep] + "S1E1" + [Sep] + "E1S1";
    HeaderTwoByTwo("B2x2");
    TwoByTwo(s, "B2x2", 'S', 'E', 'E', 'S');
    TwoSnakesBoard([Snake, Plain, Plain, Snake]);
  }

  lemma {:induction false} TwoSnakesBoard(b: seq<Cell>)
    requires b == [Snake, Plain, Plain, Snake]
    ensures SnakeCount(b) == 2
  {
    assert b[3..] == [Snake] && b[3..][1..] == [];
    assert SnakeCount(b[3..]) == 1;
    assert b[2..][1..] == b[3..] && SnakeCount(b[2..]) == 1;
    assert b[1..][1..] == b[2..] && SnakeCount(b[1..]) == 1;
  }

  /** A row whose second run takes it past a width of two stops on the
      width check. */
  lemma {:induction false} OverflowRow(t: seq<char>, x: char, y: char, p: Progress)
    requires Kind(x).Some? && !IsDigit(y) && t == [x, '1', y, '2']
    requires |p.cells| == 4 && WrittenUpTo(p.cells, p.pos) && p.pos == 0
    ensures ScanRow(t, 2, 4, 0, p) == RowStopped(RowOverflow)
  {
    ShowSmall();
    var rest := EncodeRun(Run(y, 2));
    assert t == EncodeRun(Run(x, 1)) + rest;
    NextRunOfEncoded(Run(x, 1), rest);
    NextRunOfEncoded(Run(y, 2), []);
    assert rest + [] == rest;
    var first := ScanRun(t, 2, 4, 0, p);
    assert first.Next? && first.rest == rest && first.rowCells == 1;
    assert ScanRun(rest, 2, 4, 1, first.p) == Stop(RowOverflow);
  }

  /** The first row token alone decides a failure on it. */
  lemma {:induction false} FirstRowStops(s: seq<char>, height: nat, width: nat, at: Check)
    requires 1 < |Tokens(s)| && SetDimensions(Tokens(s)[0]) == Dims(height, width)
    requires ScanRow(Tokens(s)[1], width, height * width, 0, Reached([], height * width)) == RowStopped(at)
    ensures Decompress(s) == Failure(ErrorOf(at))
  {
    var rows := Tokens(s)[1..];
    assert rows[..0] == [] && rows[0] == Tokens(s)[1];
    RowFailure(s, height, width, 0);
  }

  /** A header and two row tokens, the first of which stops the run loop. */
  lemma {:induction false} FirstOfTwoStops(s: seq<char>, head: seq<char>, a: seq<char>, b: seq<char>, at: Check)
    requires SetDimensions(head) == Dims(2, 2) && 0 < |head| && Sep !in head
    requires 0 < |a| && Sep !in a && 0 < |b| && Sep !in b
    requires s == head + [Sep] + a + [Sep] + b
    requires ScanRow(a, 2, 4, 0, Reached([], 4)) == RowStopped(at)
    ensures Decompress(s) == Failure(ErrorOf(at))
  {
    ThreeTokens(s, head, a, b);
    FirstRowStops(s, 2, 2, at);
  }

  /** A two-by-two board whose first row has a second run two cells long. */
  lemma {:induction false} FirstRowOverflows(s: seq<char>, head: seq<char>, x: char, y: char, b: seq<char>)
    requires SetDimensions(head) == Dims(2, 2) && 0 < |head| && Sep !in head
    requires Kind(x).Some? && !IsDigit(y) && y != Sep && 0 < |b| && Sep !in b
    requires s == head + [Sep] + [x, '1', y, '2'] + [Sep] + b
    ensures Decompress(s) == Failure(IncorrectDimensions)
  {
    var a := [x, '1', y, '2'];
    OverflowRow(a, x, y, Reached([], 4));
    ErrorCodes();
    FirstOfTwoStops(s, head, a, b, RowOverflow);
  }

  /** A run that takes its row past the width is refused as incorrect
      dimensions: here the second run of the first row. */
  lemma {:induction false} RowOverflowExample(s: seq<char>)
    requires s == "B2x2|W1E2|E1S1"
    ensures Decompress(s) == Failure(IncorrectDimensions)
  {
    assert s == "B2x2" + [Sep] + "W1E2" + [Sep] + "E1S1";
    HeaderTwoByTwo("B2x2");
    FirstRowOverflows(s, "B2x2", 'W', 'E', "E1S1");
  }

  /** A row whose second run names no cell kind stops on the filler's
      symbol check, after its first run has been written. */
  lemma {:induction false} UnknownRow(t: seq<char>, x: char, y: char, p: Progress)
    requires Kind(x).Some? && Kind(y).None? && !IsDigit(y) && t == [x, '1', y, '1']
    requires |p.cells| == 4 && WrittenUpTo(p.cells, p.pos) && p.pos == 2
    ensures ScanRow(t, 2, 4, 0, p) == RowStopped(UnknownSymbol)
  {
    ShowSmall();
    var rest := EncodeRun(Run(y, 1));
    assert t == EncodeRun(Run(x, 1)) + rest;
    NextRunOfEncoded(Run(x, 1), rest);
    NextRunOfEncoded(Run(y, 1), []);
    assert rest + [] == rest;
    var first := ScanRun(t, 2, 4, 0, p);
    assert first.Next? && first.rest == rest && first.rowCells == 1 && first.p.pos == 3;
    assert ScanRun(rest, 2, 4, 1, first.p) == Stop(UnknownSymbol);
  }

  /** A header and two row tokens, the first of which fits the width and the
      second of which stops the run loop. */
  lemma {:induction false} SecondOfTwoStops(s: seq<char>, head: seq<char>, a: seq<char>, b: seq<char>, at: Check)
    requires SetDimensions(head) == Dims(2, 2) && 0 < |head| && Sep !in head
    requires 0 < |a| && Sep !in a && 0 < |b| && Sep !in b
    requires s == head + [Sep] + a + [Sep] + b
    requires RowOk(a, 2) && ScanRow(b, 2, 4, 0, Reached(RowCells(a), 4)) == RowStopped(at)
    ensures Decompress(s) == Failure(ErrorOf(at))
  {
    ThreeTokens(s, head, a, b);
    var rows := Tokens(s)[1..];
    assert rows[..1] == [a] && rows[1] == b;
    PictureCons([a], 2);
    assert [a][1..] == [];
    EmptyAround(RowCells(a));
    RowFailure(s, 2, 2, 1);
  }

  /** A two-by-two board whose second row has a second run of an unknown
      symbol. */
  lemma {:induction false} SecondRowUnknown(s: seq<char>, head: seq<char>, x1: char, y1: char, x2: char, y2: char)
    requires SetDimensions(head) == Dims(2, 2) && 0 < |head| && Sep !in head
    requires Kind(x1).Some? && Kind(y1).Some? && Kind(x2).Some?
    requires Kind(y2).None? && !IsDigit(y2) && y2 != Sep
    requires s == head + [Sep] + [x1, '1', y1, '1'] + [Sep] + [x2, '1', y2, '1']
    ensures Decompress(s) == Failure(BadChar)
  {
    var a, b := [x1, '1', y1, '1'], [x2, '1', y2, '1'];
    TwoCellRow(a, x1, y1);
    UnknownRow(b, x2, y2, Reached(RowCells(a), 4));
    ErrorCodes();
    SecondOfTwoStops(s, head, a, b, UnknownSymbol);
  }

  /** An unknown symbol is a bad character: here `X` in the second row,
      after a first row that decodes. */
  lemma {:induction false} UnknownSymbolExample(s: seq<char>)
    requires s == "B2x2|W1E1|E1X1"
    ensures Decompress(s) == Failure(BadChar)
  {
    assert s == "B2x2" + [Sep] + ['W', '1', 'E', '1'] + [Sep] + ['E', '1', 'X', '1'];
    HeaderTwoByTwo("B2x2");
    SecondRowUnknown(s, "B2x2", 'W', 'E', 'E', 'X');
  }

  /** A header of the given size and one row token of two one-cell runs. */
  lemma {:induction false} OneRowOfTwo(s: seq<char>, head: seq<char>, height: nat, x: char, y: char)
    requires SetDimensions(head) == Dims(height, 2) && 0 < |head| && Sep !in head
    requires Kind(x).Some? && Kind(y).Some? && height != 1
    requires s == head + [Sep] + [x, '1', y, '1']
    ensures Decompress(s) == Failure(IncorrectDimensions)
  {
    var a := [x, '1', y, '1'];
    TwoCellRow(a, x, y);
    TwoTokens(s, head, a);
    assert Tokens(s)[1..] == [a];
    RowCountFailure(s);
  }

  /** Fewer row tokens than the height: incorrect dimensions. */
  lemma {:induction false} MissingRowExample(s: seq<char>)
    requires s == "B2x2|W1S1"
    ensures Decompress(s) == Failure(IncorrectDimensions)
  {
    HeaderTwoByTwo("B2x2");
    OneRowOfTwo(s, "B2x2", 2, 'W', 'S');
  }

  /** A single run five cells long in a row two cells wide stops on the
      width check, whatever its symbol. */
  lemma {:induction false} LongRun(t: seq<char>, x: char, p: Progress)
    requires !IsDigit(x) && t == [x, '5']
    requires |p.cells| == 2 && WrittenUpTo(p.cells, p.pos)
    ensures ScanRow(t, 2, 2, 0, p) == RowStopped(RowOverflow)
  {
    ShowSmall();
    assert t == EncodeRun(Run(x, 5)) + [];
    NextRunOfEncoded(Run(x, 5), []);
    assert ScanRun(t, 2, 2, 0, p) == Stop(RowOverflow);
  }

  /** One row of one long run of any symbol under a one-by-two header. */
  lemma {:induction false} OneLongRun(s: seq<char>, head: seq<char>, x: char)
    requires SetDimensions(head) == Dims(1, 2) && 0 < |head| && Sep !in head
    requires !IsDigit(x) && x != Sep
    requires s == head + [Sep] + [x, '5']
    ensures Decompress(s) == Failure(IncorrectDimensions)
  {
    var a := [x, '5'];
    TwoTokens(s, head, a);
    LongRun(a, x, Reached([], 2));
    ErrorCodes();
    FirstRowStops(s, 1, 2, RowOverflow);
  }

  /** The width check comes before the symbol check: `X5` in a row two
      cells wide is incorrect dimensions, not a bad character. */
  lemma {:induction false} CheckOrderExample(s: seq<char>)
    requires s == "B1x2|X5"
    ensures Decompress(s) == Failure(IncorrectDimensions)
  {
    HeaderOneByTwo("B1x2");
    OneLongRun(s, "B1x2", 'X');
  }

  /** A header whose height reads as zero is refused. */
  lemma {:induction false} ZeroHeightHeader(tok: seq<char>)
    requires tok == "B0x2"
    ensures SetDimensions(tok) == BadHeader && 0 < |tok| && Sep !in tok
  {
    var tail := tok[1..];
    assert tail == "0x2";
    DigitRunEndAt(tail, 0, 1);
    var zero := tail[..1];
    assert zero == "0" && zero[..0] == [];
    assert Value(zero) == 0;
  }

  /** A header that is refused makes the whole string a bad character,
      whatever follows it. */
  lemma {:induction false} RefusedHeader(s: seq<char>, head: seq<char>, a: seq<char>)
    requires SetDimensions(head) == BadHeader && 0 < |head| && Sep !in head
    requires 0 < |a| && Sep !in a
    requires s == head + [Sep] + a
    ensures Decompress(s) == Failure(BadChar)
  {
    TwoTokens(s, head, a);
    HeaderFailure(s);
  }

  /** A header whose height reads as zero is a bad character. */
  lemma {:induction false} ZeroHeightExample(s: seq<char>)
    requires s == "B0x2|W1S1"
    ensures Decompress(s) == Failure(BadChar)
  {
    ZeroHeightHeader("B0x2");
    RefusedHeader(s, "B0x2", "W1S1");
  }

  /** Once the announced rows have been read, a further token is refused as
      incorrect dimensions before it is read: `X` here is never taken for a
      bad character. */
  lemma {:induction false} ExtraRowExample(s: seq<char>)
    requires s == "B1x2|W1S1|X"
    ensures Decompress(s) == Failure(IncorrectDimensions)
  {
    HeaderOneByTwo("B1x2");
    OneRowThenExtra(s, "B1x2", 'W', 'S', "X");
  }

  /** A one-row header, a row of two one-cell runs, and any further token. */
  lemma {:induction false} OneRowThenExtra(s: seq<char>, head: seq<char>, x: char, y: char, b: seq<char>)
    requires SetDimensions(head) == Dims(1, 2) && 0 < |head| && Sep !in head
    requires Kind(x).Some? && Kind(y).Some? && 0 < |b| && Sep !in b
    requires s == head + [Sep] + [x, '1', y, '1'] + [Sep] + b
    ensures Decompress(s) == Failure(IncorrectDimensions)
  {
    var a := [x, '1', y, '1'];
    TwoCellRow(a, x, y);
    ThreeTokens(s, head, a, b);
    assert Tokens(s)[1..][..1] == [a];
    ExtraRowFailure(s, 1, 2);
  }

  /** Doubled and trailing separators yield no empty token. */
  lemma {:induction false} CollapsedSeparators(s: seq<char>, head: seq<char>, row: seq<char>)
    requires 0 < |head| && Sep !in head && 0 < |row| && Sep !in row
    requires s == head + [Sep, Sep] + row + [Sep]
    ensures Tokens(s) == [head, row]
  {
    var last := row + [Sep] + [];
    var rest := [] + [Sep] + last;
    assert s == head + [Sep] + rest;
    TokensSplit(head, rest);
    TokensSplit([], last);
    TokensSplit(row, []);
    TokensOfPiece(head);
    TokensOfPiece(row);
    TokensOfPiece([]);
  }
}

=== FILE: header.dfy ===
/** The dimension parser (`set_dimensions`): the header token `B<H>x<W>`. */
module Header {
  import opened Text

  datatype Dimensions = Dims(height: nat, width: nat) | BadHeader

  /** Where the width digits begin: just past the first 'x' after the
      leading 'B'. */
  function WidthStart(tok: seq<char>): nat
    requires 0 < |tok|
  {
    IndexOf(tok, 'x', 1) + 1
  }

  /** The header is refused when it does not start with 'B', holds no 'x',
      or either number reads as zero; otherwise the height is the digit
      prefix after 'B' and the width the digit prefix after the first 'x',
      anything after those digits being ignored. */
  function SetDimensions(tok: seq<char>): (r: Dimensions)
    ensures r.BadHeader? <==>
      || |tok| == 0
      || tok[0] != 'B'
      || 'x' !in tok
      || LeadingNumber(tok[1..]) == 0
      || LeadingNumber(tok[WidthStart(tok)..]) == 0
    ensures r.Dims? ==> 0 < r.height && 0 < r.width
    ensures r.Dims? ==>
      && r.height == LeadingNumber(tok[1..])
      && r.width == LeadingNumber(tok[WidthStart(tok)..])
  {
    if |tok| == 0 || tok[0] != 'B' then BadHeader
    else
      var x := IndexOf(tok, 'x', 1);
      if x == |tok| then
        assert forall k :: 0 <= k < |tok| ==> tok[k] != 'x';
        BadHeader
      else
        var height := LeadingNumber(tok[1..]);
        var width := LeadingNumber(tok[x + 1..]);
        if height == 0 || width == 0 then BadHeader else Dims(height, width)
  }

  /** The header an encoder writes for a board of the given size. */
  function HeaderOf(height: nat, width: nat): seq<char> {
    ['B'] + Show(height) + ['x'] + Show(width)
  }

  /** The header round trip: a written header parses back to the same
      positive dimensions, even with a non-digit tail after the width. */
  lemma {:induction false} SetDimensionsOfHeader(height: nat, width: nat, junk: seq<char>)
    requires 0 < height && 0 < width
    requires |junk| == 0 || !IsDigit(junk[0])
    ensures SetDimensions(HeaderOf(height, width) + junk) == Dims(height, width)
  {
    var tok := HeaderOf(height, width) + junk;
    var tail := Show(width) + junk;
    HeaderParts(height, tail);
    assert tok == ['B'] + Show(height) + ['x'] + tail;
    assert tok[0] == 'B';
    LeadingNumberOfShow(height, ['x'] + tail);
    LeadingNumberOfShow(width, junk);
    assert LeadingNumber(tok[1..]) == height;
    assert LeadingNumber(tok[IndexOf(tok, 'x', 1) + 1..]) == width;
  }

  /** Where the parts of a header start. */
  lemma {:induction false} HeaderParts(height: nat, tail: seq<char>)
    ensures
      var h := Show(height);
      var tok := ['B'] + h + ['x'] + tail;
      && IndexOf(tok, 'x', 1) == 1 + |h|
      && tok[1..] == h + (['x'] + tail)
      && tok[2 + |h|..] == tail
  {
    var h := Show(height);
    var tok := ['B'] + h + ['x'] + tail;
    ShowHasNo(height, 'x');
    assert forall k :: 1 <= k < 1 + |h| ==> tok[k] == h[k - 1];
    assert tok[1 + |h|] == 'x';
    IndexOfAt(tok, 'x', 1, 1 + |h|);
  }
}

=== FILE: layout.dfy ===
/** What a compressed board string means, stated independently of the
    decoder's loops, and the theorems tying the decoder to it: the decoder
    succeeds exactly on well-formed strings and then returns the board their
    runs spell, with the snake head at the only snake cell. */
module Layout {
  import opened Text
  import opened Tokenize
  import opened Header
  import opened Cells
  import opened Runs
  import opened Decoder

  /** A row token that reads as runs the filler accepts, covering at most
      `room` cells. */
  predicate RowFits(t: seq<char>, room: nat) {
    && ParseRuns(t).Some?
    && AllValid(ParseRuns(t).value)
    && Width(ParseRuns(t).value) <= room
  }

  /** A row token that decodes to exactly `width` cells. */
  predicate RowOk(t: seq<char>, width: nat) {
    RowFits(t, width) && Width(ParseRuns(t).value) == width
  }

  predicate RowsOk(rows: seq<seq<char>>, width: nat) {
    forall k :: 0 <= k < |rows| ==> RowOk(rows[k], width)
  }

  /** The cells a fitting row token stands for. */
  function RowCells(t: seq<char>): (cells: seq<Cell>)
    requires ParseRuns(t).Some? && AllValid(ParseRuns(t).value)
    ensures |cells| == Width(ParseRuns(t).value)
  {
    Expand(ParseRuns(t).value)
  }

  /** The rows' cells laid end to end, row after row. */
  function Picture(rows: seq<seq<char>>, width: nat): (b: seq<Cell>)
    requires RowsOk(rows, width)
    ensures |b| == |rows| * width
    decreases |rows|
  {
    if |rows| == 0 then []
    else
      assert RowOk(rows[0], width);
      assert RowsOk(rows[1..], width) by {
        forall k | 0 <= k < |rows| - 1
          ensures RowOk(rows[1..][k], width)
        {
          assert rows[1..][k] == rows[k + 1];
        }
      }
      Distribute(1, |rows| - 1, width);
      RowCells(rows[0]) + Picture(rows[1..], width)
  }

  /** The format the decoder accepts: a `B<H>x<W>` header, then exactly H
      row tokens, each a list of runs with known symbols and single-cell
      snake runs summing to W, and exactly one snake cell on the board. */
  predicate WellFormed(s: seq<char>) {
    var tokens := Tokens(s);
    && 0 < |tokens|
    && SetDimensions(tokens[0]).Dims?
    && |tokens| - 1 == SetDimensions(tokens[0]).height
    && RowsOk(tokens[1..], SetDimensions(tokens[0]).width)
    && SnakeCount(Picture(tokens[1..], SetDimensions(tokens[0]).width)) == 1
  }

  /** The board a well-formed string spells. */
  function Spelled(s: seq<char>): seq<Cell>
    requires WellFormed(s)
  {
    Picture(Tokens(s)[1..], SetDimensions(Tokens(s)[0]).width)
  }

  /** Reading a row token is reading its first run and then the rest. */
  lemma {:induction false} RowFitsStep(t: seq<char>, room: nat, run: Run, rest: seq<char>)
    requires 0 < |t| && NextRun(t) == Some((run, rest))
    ensures RowFits(t, room) <==> ValidRun(run) && run.count <= room && RowFits(rest, room - run.count)
    ensures RowFits(t, room) ==>
      && Width(ParseRuns(t).value) == run.count + Width(ParseRuns(rest).value)
      && RowCells(t) == seq(run.count, _ => Kind(run.sym).value) + RowCells(rest)
  {
    match ParseRuns(rest)
    case None =>
    case Some(runs) =>
      assert ParseRuns(t) == Some([run] + runs);
      assert ([run] + runs)[0] == run;
      assert ([run] + runs)[1..] == runs;
      assert AllValid([run] + runs) <==> ValidRun(run) && AllValid(runs) by {
        if ValidRun(run) && AllValid(runs) {
          forall k | 0 <= k < |runs| + 1
            ensures ValidRun(([run] + runs)[k])
          {
            if k > 0 {
              assert ([run] + runs)[k] == runs[k - 1];
            }
          }
        }
        if AllValid([run] + runs) {
          forall k | 0 <= k < |runs|
            ensures ValidRun(runs[k])
          {
            assert ([run] + runs)[k + 1] == runs[k];
          }
        }
      }
  }

  /** Written cells holding `b`. */
  function Lift(b: seq<Cell>): seq<Option<Cell>> {
    seq(|b|, k requires 0 <= k < |b| => Some(b[k]))
  }

  /** Cells never written. */
  function Blank(n: nat): seq<Option<Cell>> {
    seq(n, _ => None)
  }

  /** The decoder's progress `p` in an array of `total` cells holds exactly
      `pre`: the cells before the position are `pre`, none after it has been
      written, and the snake counter counts the snake cells of `pre`. */
  predicate Holds(p: Progress, pre: seq<Cell>, total: nat) {
    && |p.cells| == total
    && WrittenUpTo(p.cells, p.pos)
    && p.pos == |pre|
    && p.snakes == SnakeCount(pre)
    && p.cells == Lift(pre) + Blank(total - |pre|)
  }

  /** The one progress that holds `pre`. */
  function Reached(pre: seq<Cell>, total: nat): (p: Progress)
    requires |pre| <= total
    ensures Holds(p, pre, total)
  {
    var cells := Lift(pre) + Blank(total - |pre|);
    assert WrittenUpTo(cells, |pre|) by {
      forall k | 0 <= k < |cells|
        ensures cells[k].Some? <==> k < |pre|
      {
        if k < |pre| {
          assert cells[k] == Lift(pre)[k];
        } else {
          assert cells[k] == Blank(total - |pre|)[k - |pre|];
        }
      }
    }
    Progress(cells, |pre|, SnakeCount(pre))
  }

  /** One pass of the run loop from a progress holding `pre`: an accepted
      run is written right after `pre`, and the total-cells check does not
      fire while the row fits in what is left of the board. */
  lemma {:induction false} ScanRunMeaning(t: seq<char>, width: nat, total: nat, rowCells: nat, p: Progress, pre: seq<Cell>)
    requires 0 < |t| && Holds(p, pre, total)
    requires rowCells <= width && |pre| + (width - rowCells) <= total
    ensures ScanRun(t, width, total, rowCells, p) != Stop(TotalOverflow)
    ensures ScanRun(t, width, total, rowCells, p).Next? ==>
      var run := NextRun(t).value.0;
      Holds(ScanRun(t, width, total, rowCells, p).p, pre + seq(run.count, _ => Kind(run.sym).value), total)
  {
    var s := ScanRun(t, width, total, rowCells, p);
    if s.Next? {
      var run := NextRun(t).value.0;
      var kind := Kind(run.sym).value;
      var block := seq(run.count, _ => kind);
      var after := pre + block;
      var f := FillCells(p.cells, p.pos, run.count, run.sym, p.snakes);
      assert s.p == Progress(f.cells, p.pos + run.count, f.snakes);
      forall k | 0 <= k < total
        ensures s.p.cells[k] == (Lift(after) + Blank(total - |after|))[k]
      {
        if k < |pre| {
          assert after[k] == pre[k];
        } else if k < |after| {
          assert after[k] == block[k - |pre|];
        }
      }
      SnakeCountAppend(pre, block);
      SnakeCountOfRun(run.count, kind);
    }
  }

  /** A pass of the run loop that stops means the rest of the row does not
      read as fitting valid runs. */
  lemma {:induction false} ScanRunStops(t: seq<char>, width: nat, total: nat, rowCells: nat, p: Progress)
    requires 0 < |t| && |p.cells| == total && WrittenUpTo(p.cells, p.pos)
    requires rowCells <= width && p.pos + (width - rowCells) <= total
    requires ScanRun(t, width, total, rowCells, p).Stop?
    ensures !RowFits(t, width - rowCells)
  {
    if NextRun(t).None? {
      assert ParseRuns(t).None?;
    } else {
      var (run, rest) := NextRun(t).value;
      RowFitsStep(t, width - rowCells, run, rest);
    }
  }

  /** A pass of the run loop that goes on has consumed the first run of the
      row: what is left fits exactly when the whole did, and the written
      cells grow by that run's block. */
  lemma {:induction false} ScanRunAdvances(t: seq<char>, width: nat, total: nat, rowCells: nat, p: Progress, pre: seq<Cell>)
    requires 0 < |t| && Holds(p, pre, total)
    requires rowCells <= width && |pre| + (width - rowCells) <= total
    requires ScanRun(t, width, total, rowCells, p).Next?
    ensures
      var s := ScanRun(t, width, total, rowCells, p);
      var run := NextRun(t).value.0;
      var after := pre + seq(run.count, _ => Kind(run.sym).value);
      && |s.rest| < |t|
      && s.rowCells <= width
      && Holds(s.p, after, total)
      && |after| + (width - s.rowCells) <= total
      && (RowFits(t, width - rowCells) <==> RowFits(s.rest, width - s.rowCells))
      && (RowFits(t, width - rowCells) ==>
            && Width(ParseRuns(t).value) == run.count + Width(ParseRuns(s.rest).value)
            && RowCells(t) == seq(run.count, _ => Kind(run.sym).value) + RowCells(s.rest))
  {
    var (run, rest) := NextRun(t).value;
    ScanRunMeaning(t, width, total, rowCells, p, pre);
    RowFitsStep(t, width - rowCells, run, rest);
  }

  /** The run-scanning loop against the reference reading of the row: it
      accepts the rest `t` of a row exactly when `t` reads as valid runs that
      fit the room left in the row, and then it has written exactly those
      runs' cells after the ones written before. The total-cells check never
      fires while the row fits in what is left of the board. */
  lemma {:induction false} ScanRowMeaning(t: seq<char>, width: nat, total: nat, rowCells: nat, p: Progress, pre: seq<Cell>)
    requires Holds(p, pre, total)
    requires rowCells <= width && |pre| + (width - rowCells) <= total
    ensures ScanRow(t, width, total, rowCells, p).RowScanned? <==> RowFits(t, width - rowCells)
    ensures RowFits(t, width - rowCells) ==>
      && ScanRow(t, width, total, rowCells, p).rowCells == rowCells + Width(ParseRuns(t).value)
      && Holds(ScanRow(t, width, total, rowCells, p).p, pre + RowCells(t), total)
    ensures ScanRow(t, width, total, rowCells, p) != RowStopped(TotalOverflow)
    decreases |t|
  {
    if |t| == 0 {
      assert ParseRuns(t) == Some([]);
      assert pre + RowCells(t) == pre;
    } else {
      var s := ScanRun(t, width, total, rowCells, p);
      ScanRunMeaning(t, width, total, rowCells, p, pre);
      if s.Stop? {
        ScanRunStops(t, width, total, rowCells, p);
      } else {
        ScanRunAdvances(t, width, total, rowCells, p, pre);
        var run := NextRun(t).value.0;
        var after := pre + seq(run.count, _ => Kind(run.sym).value);
        ScanRowMeaning(s.rest, width, total, s.rowCells, s.p, after);
        if RowFits(t, width - rowCells) {
          Associative(pre, seq(run.count, _ => Kind(run.sym).value), RowCells(s.rest));
        }
      }
    }
  }

  /** A row token that reads as acceptable runs covering more cells than are
      left in the row stops the run loop on the row-width check: the runs
      that still fit are written, and the first that does not is refused. */
  lemma {:induction false} WideRow(t: seq<char>, width: nat, total: nat, rowCells: nat, p: Progress, pre: seq<Cell>)
    requires Holds(p, pre, total)
    requires rowCells <= width && |pre| + (width - rowCells) <= total
    requires ParseRuns(t).Some? && AllValid(ParseRuns(t).value)
    requires width - rowCells < Width(ParseRuns(t).value)
    ensures ScanRow(t, width, total, rowCells, p) == RowStopped(RowOverflow)
    decreases |t|
  {
    if |t| > 0 {
      var (run, rest) := NextRun(t).value;
      RowFitsStep(t, Width(ParseRuns(t).value), run, rest);
      var s := ScanRun(t, width, total, rowCells, p);
      if rowCells + run.count <= width {
        assert s.Next?;
        ScanRunAdvances(t, width, total, rowCells, p, pre);
        WideRow(rest, width, total, s.rowCells, s.p, pre + seq(run.count, _ => Kind(run.sym).value));
      }
    }
  }

  /** Row `i` of the board, reached with the rows before it written, when
      its runs are acceptable but add up to more than the width. */
  lemma {:induction false} WideRowAt(t: seq<char>, height: nat, width: nat, i: nat, pre: seq<Cell>)
    requires i < height && |pre| == i * width
    requires ParseRuns(t).Some? && AllValid(ParseRuns(t).value)
    requires width < Width(ParseRuns(t).value)
    ensures |pre| <= height * width
    ensures ScanRow(t, width, height * width, 0, Reached(pre, height * width)) == RowStopped(RowOverflow)
  {
    MulMonotone(i + 1, height, width);
    Distribute(i, 1, width);
    WideRow(t, width, height * width, 0, Reached(pre, height * width), pre);
  }

  /** Row `i` of the board, reached with the rows before it written, when
      its runs are acceptable but add up to less than the width. */
  lemma {:induction false} NarrowRowAt(t: seq<char>, height: nat, width: nat, i: nat, pre: seq<Cell>)
    requires i < height && |pre| == i * width
    requires ParseRuns(t).Some? && AllValid(ParseRuns(t).value)
    requires Width(ParseRuns(t).value) < width
    ensures |pre| <= height * width
    ensures
      var row := ScanRow(t, width, height * width, 0, Reached(pre, height * width));
      row.RowScanned? && row.rowCells < width
  {
    MulMonotone(i + 1, height, width);
    Distribute(i, 1, width);
    ScanRowMeaning(t, width, height * width, 0, Reached(pre, height * width), pre);
  }

  lemma {:induction false} Associative<T>(a: seq<T>, b: seq<T>, c: seq<T>)
    ensures a + (b + c) == (a + b) + c
  {
  }

  lemma {:induction false} MulMonotone(a: nat, b: nat, w: nat)
    requires a <= b
    ensures a * w <= b * w
  {
  }

  lemma {:induction false} RowsOkTail(rows: seq<seq<char>>, width: nat)
    requires 0 < |rows|
    ensures RowsOk(rows, width) <==> RowOk(rows[0], width) && RowsOk(rows[1..], width)
  {
    if RowOk(rows[0], width) && RowsOk(rows[1..], width) {
      forall k | 0 <= k < |rows|
        ensures RowOk(rows[k], width)
      {
        if k > 0 {
          assert rows[k] == rows[1..][k - 1];
        }
      }
    }
    if RowsOk(rows, width) {
      forall k | 0 <= k < |rows| - 1
        ensures RowOk(rows[1..][k], width)
      {
        assert rows[1..][k] == rows[k + 1];
      }
    }
  }

  /** One row of the row loop, with rows still missing: the row is taken
      exactly when it decodes to exactly `width` cells, and then the
      progress holds its cells after the earlier ones, one row further on. */
  lemma {:induction false} ScanFirstRow(t: seq<char>, height: nat, width: nat, rowCount: nat, p: Progress, pre: seq<Cell>)
    requires Holds(p, pre, height * width)
    requires rowCount < height && |pre| == rowCount * width
    ensures
      var r0 := ScanRow(t, width, height * width, 0, p);
      && (r0.RowScanned? && r0.rowCells == width <==> RowOk(t, width))
      && r0 != RowStopped(TotalOverflow)
      && (RowOk(t, width) ==>
            && Holds(r0.p, pre + RowCells(t), height * width)
            && |pre + RowCells(t)| == (rowCount + 1) * width)
  {
    MulMonotone(rowCount + 1, height, width);
    Distribute(rowCount, 1, width);
    ScanRowMeaning(t, width, height * width, 0, p, pre);
  }

  lemma {:induction false} SnakeCountZero(b: seq<Cell>)
    ensures SnakeCount(b) == 0 <==> forall k :: 0 <= k < |b| ==> b[k] != Snake
    decreases |b|
  {
    if |b| > 0 {
      SnakeCountZero(b[1..]);
      assert forall k :: 1 <= k < |b| ==> b[k] == b[1..][k - 1];
    }
  }

  /** On a board with a single snake cell the head search finds it, and it
      is the only one. */
  lemma {:induction false} SnakeHeadUnique(b: seq<Cell>)
    requires SnakeCount(b) == 1
    ensures FirstSnake(b, 0) < |b|
    ensures forall k :: 0 <= k < |b| ==> (b[k] == Snake <==> k == FirstSnake(b, 0))
  {
    var h := FirstSnake(b, 0);
    SnakeCountZero(b);
    assert h < |b|;
    assert b == b[..h] + ([b[h]] + b[h + 1..]);
    SnakeCountAppend(b[..h], [b[h]] + b[h + 1..]);
    SnakeCountAppend([b[h]], b[h + 1..]);
    SnakeCountZero(b[..h]);
    SnakeCountZero(b[h + 1..]);
    forall k | h < k < |b|
      ensures b[k] != Snake
    {
      assert b[k] == b[h + 1..][k - h - 1];
    }
  }

  lemma {:induction false} EmptyAround<T>(s: seq<T>)
    ensures [] + s == s && s + [] == s
  {
  }

  lemma {:induction false} StartHolds(total: nat)
    ensures Holds(Start(total), [], total)
  {
    assert Lift([]) + Blank(total) == Start(total).cells;
  }

  /** The first row token at or after `i` that does not decode to exactly
      `width` cells, or |rows| when there is none. */
  function FirstBadRow(rows: seq<seq<char>>, width: nat, i: nat): (j: nat)
    requires i <= |rows|
    ensures i <= j <= |rows|
    ensures forall k :: i <= k < j ==> RowOk(rows[k], width)
    ensures j < |rows| ==> !RowOk(rows[j], width)
    decreases |rows| - i
  {
    if i < |rows| && RowOk(rows[i], width) then FirstBadRow(rows, width, i + 1) else i
  }

  /** The row loop run from the start over all row tokens, against the
      reference: it gets through them exactly when they are no more than the
      height and each decodes to exactly `width` cells, and then it has
      counted them all and written their picture. Once `height` valid rows
      have been read, any further row token is refused as an extra row
      before it is read; the total-cells check never fires. */
  lemma {:induction false} ScanBoardMeaning(rows: seq<seq<char>>, height: nat, width: nat)
    ensures ScanRows(rows, height, width, 0, Start(height * width)).RowsScanned?
      <==> |rows| <= height && RowsOk(rows, width)
    ensures |rows| <= height && RowsOk(rows, width) ==>
      && ScanRows(rows, height, width, 0, Start(height * width)).rowCount == |rows|
      && Holds(ScanRows(rows, height, width, 0, Start(height * width)).p, Picture(rows, width), height * width)
    ensures height < |rows| && RowsOk(rows[..height], width) ==>
      ScanRows(rows, height, width, 0, Start(height * width)) == RowsStopped(ExtraRow)
    ensures ScanRows(rows, height, width, 0, Start(height * width)) != RowsStopped(TotalOverflow)
  {
    if height < |rows| && RowsOk(rows[..height], width) {
      ExtraRowRefused(rows, height, width);
    }
    var total := height * width;
    StartHolds(total);
    HoldsReached(Start(total), [], total);
    var bad := FirstBadRow(rows, width, 0);
    var n := if bad < height then bad else height;
    assert RowsOk(rows[..n], width) by {
      forall k | 0 <= k < n
        ensures RowOk(rows[..n][k], width)
      {
        assert rows[..n][k] == rows[k];
      }
    }
    ScanRowsSkip(rows, height, width, n);
    var before := Picture(rows[..n], width);
    var q := Reached(before, total);
    if n == |rows| {
      assert rows[..n] == rows && rows[n..] == [];
      assert ScanRows(rows[n..], height, width, n, q) == RowsScanned(n, q);
    } else if n == height {
      assert !(|rows| <= height);
      assert ScanRows(rows[n..], height, width, n, q) == RowsStopped(ExtraRow);
    } else {
      assert !RowOk(rows[n], width);
      Distribute(0, n, width);
      ScanFirstRow(rows[n], height, width, n, q, before);
      assert rows[n..][0] == rows[n];
      assert ScanRows(rows[n..], height, width, n, q).RowsStopped?;
    }
  }

  /** The row after the last one the height allows is refused unread: after
      `height` rows that each decode to exactly `width` cells, the loop stops
      on the extra-row check whatever the next token holds. */
  lemma {:induction false} ExtraRowRefused(rows: seq<seq<char>>, height: nat, width: nat)
    requires height < |rows| && RowsOk(rows[..height], width)
    ensures ScanRows(rows, height, width, 0, Start(height * width)) == RowsStopped(ExtraRow)
  {
    var total := height * width;
    StartHolds(total);
    HoldsReached(Start(total), [], total);
    ScanRowsSkip(rows, height, width, height);
    var q := Reached(Picture(rows[..height], width), total);
    assert ScanRows(rows[height..], height, width, height, q) == RowsStopped(ExtraRow);
  }

  /** A progress is fixed by what it holds. */
  lemma {:induction false} HoldsReached(p: Progress, pre: seq<Cell>, total: nat)
    requires Holds(p, pre, total)
    ensures p == Reached(pre, total)
  {
  }

  /** One row the loop takes: from the progress holding `pre`, a row token
      that decodes to exactly `width` cells, with rows still missing, moves
      the loop on to the next row with that row's cells written. */
  lemma {:induction false} ScanRowsStep(rows: seq<seq<char>>, height: nat, width: nat, rowCount: nat, pre: seq<Cell>)
    requires 0 < |rows| && RowOk(rows[0], width)
    requires rowCount < height && |pre| == rowCount * width
    ensures |pre| <= height * width
    ensures |pre + RowCells(rows[0])| == (rowCount + 1) * width <= height * width
    ensures ScanRows(rows, height, width, rowCount, Reached(pre, height * width))
      == ScanRows(rows[1..], height, width, rowCount + 1, Reached(pre + RowCells(rows[0]), height * width))
  {
    var total := height * width;
    MulMonotone(rowCount + 1, height, width);
    Distribute(rowCount, 1, width);
    var p := Reached(pre, total);
    ScanFirstRow(rows[0], height, width, rowCount, p, pre);
    var r0 := ScanRow(rows[0], width, total, 0, p);
    HoldsReached(r0.p, pre + RowCells(rows[0]), total);
  }

  /** Rows the loop takes can be skipped: when the first `i` row tokens each
      decode to exactly `width` cells and fit under the height, the loop
      from the start over all rows is the loop over the rest, started after
      those rows with their picture written. */
  lemma {:induction false} ScanRowsSkip(rows: seq<seq<char>>, height: nat, width: nat, i: nat)
    requires i <= height && i <= |rows| && RowsOk(rows[..i], width)
    ensures |Picture(rows[..i], width)| <= height * width
    ensures ScanRows(rows, height, width, 0, Reached([], height * width))
      == ScanRows(rows[i..], height, width, i, Reached(Picture(rows[..i], width), height * width))
    decreases i
  {
    var total := height * width;
    MulMonotone(i, height, width);
    if i == 0 {
      assert rows[..i] == [] && rows[i..] == rows;
    } else {
      var upto := rows[..i];
      var before := rows[..i - 1];
      assert upto[..i - 1] == before && upto[i - 1] == rows[i - 1];
      RowsOkPrefix(upto, width, i - 1);
      ScanRowsSkip(rows, height, width, i - 1);
      var rest := rows[i - 1..];
      assert rest[0] == rows[i - 1] && rest[1..] == rows[i..];
      ScanRowsStep(rest, height, width, i - 1, Picture(before, width));
      PictureSnoc(upto, width);
    }
  }

  lemma {:induction false} RowsOkPrefix(rows: seq<seq<char>>, width: nat, n: nat)
    requires RowsOk(rows, width) && n <= |rows|
    ensures RowsOk(rows[..n], width)
  {
    forall k | 0 <= k < n
      ensures RowOk(rows[..n][k], width)
    {
      assert rows[..n][k] == rows[k];
    }
  }

  /** The picture is the picture of all rows but the last, followed by the
      last row's cells. */
  lemma {:induction false} PictureSnoc(rows: seq<seq<char>>, width: nat)
    requires RowsOk(rows, width) && 0 < |rows|
    ensures RowsOk(rows[..|rows| - 1], width)
    ensures Picture(rows, width) == Picture(rows[..|rows| - 1], width) + RowCells(rows[|rows| - 1])
    decreases |rows|
  {
    var n := |rows| - 1;
    RowsOkPrefix(rows, width, n);
    PictureCons(rows, width);
    if n == 0 {
      assert rows[..n] == [] && rows[1..] == [];
      EmptyAround(RowCells(rows[0]));
    } else {
      var tail := rows[1..];
      PictureSnoc(tail, width);
      assert tail[..n - 1] == rows[..n][1..] && tail[n - 1] == rows[n];
      PictureCons(rows[..n], width);
      assert rows[..n][0] == rows[0];
      Associative(RowCells(rows[0]), Picture(tail[..n - 1], width), RowCells(rows[n]));
    }
  }

  /** The picture is the first row's cells followed by the picture of the
      rest. */
  lemma {:induction false} PictureCons(rows: seq<seq<char>>, width: nat)
    requires RowsOk(rows, width) && 0 < |rows|
    ensures RowOk(rows[0], width) && RowsOk(rows[1..], width)
    ensures Picture(rows, width) == RowCells(rows[0]) + Picture(rows[1..], width)
  {
    RowsOkTail(rows, width);
  }

  /** The decoder against the reference: it accepts exactly the well-formed
      strings, returns their size and the board their runs spell, and the
      total-cells checks (per run and at the end) never decide the outcome. */
  lemma {:induction false} DecodeMeaning(s: seq<char>)
    ensures Decode(s).Accepted? <==> WellFormed(s)
    ensures WellFormed(s) ==>
      && Decode(s).board == Spelled(s)
      && Decode(s).height == SetDimensions(Tokens(s)[0]).height
      && Decode(s).width == SetDimensions(Tokens(s)[0]).width
      && Decode(s).head == FirstSnake(Spelled(s), 0)
    ensures Decode(s) != Rejected(TotalOverflow) && Decode(s) != Rejected(TotalMismatch)
  {
    var tokens := Tokens(s);
    if 0 < |tokens| && SetDimensions(tokens[0]).Dims? {
      var height, width := SetDimensions(tokens[0]).height, SetDimensions(tokens[0]).width;
      var rows := tokens[1..];
      ScanBoardMeaning(rows, height, width);
      var r := ScanRows(rows, height, width, 0, Start(height * width));
      if r.RowsScanned? && |rows| == height {
        assert Board(r.p.cells) == Picture(rows, width);
      }
    }
  }
}

=== FILE: outcomes.dfy ===
/** What a caller of the decompressor can rely on: the shape of a successful
    result, where each cell comes from, and which error code each kind of
    malformed string yields. */
module Outcomes {
  import opened Tokenize
  import opened Header
  import opened Cells
  import opened Runs
  import opened Decoder
  import opened Layout

  /** The cell in column `col` of row `row` of the picture is the cell in
      that column of that row token's runs. */
  lemma {:induction false} PictureAt(rows: seq<seq<char>>, width: nat, row: nat, col: nat)
    requires RowsOk(rows, width) && row < |rows| && col < width
    ensures CellPos(row, col, width) < |Picture(rows, width)|
    ensures RowOk(rows[row], width)
    ensures Picture(rows, width)[CellPos(row, col, width)] == RowCells(rows[row])[col]
    decreases row
  {
    PictureCons(rows, width);
    var tail := Picture(rows[1..], width);
    if row == 0 {
      assert CellPos(row, col, width) == col;
    } else {
      PictureAt(rows[1..], width, row - 1, col);
      CellPosNext(row - 1, col, width);
      Distribute(|rows| - 1, 1, width);
      assert rows[1..][row - 1] == rows[row];
      assert Picture(rows, width)[CellPos(row, col, width)] == tail[CellPos(row - 1, col, width)];
    }
  }

  /** A successful decompression: the string is well formed, there are as
      many row tokens as the height and each reads as runs covering exactly
      the width, the board has height times width cells, and the head is the
      index of the one and only snake cell. */
  lemma {:induction false} SuccessShape(s: seq<char>)
    requires Decompress(s).Success?
    ensures WellFormed(s)
    ensures
      var r := Decompress(s);
      var rows := Tokens(s)[1..];
      && |rows| == r.height
      && (forall i :: 0 <= i < |rows| ==> RowOk(rows[i], r.width))
      && |r.board| == r.height * r.width
      && r.head < |r.board|
      && (forall k :: 0 <= k < |r.board| ==> (r.board[k] == Snake <==> k == r.head))
  {
    DecodeMeaning(s);
    SnakeHeadUnique(Spelled(s));
  }

  /** The decompressor succeeds on exactly the well-formed strings. */
  lemma {:induction false} SuccessIffWellFormed(s: seq<char>)
    ensures Decompress(s).Success? <==> WellFormed(s)
  {
    DecodeMeaning(s);
  }

  /** On a well-formed string the decompressor returns the board its rows
      spell, the header's size, and the first (and only) snake cell as the
      head. */
  lemma {:induction false} SuccessBoard(s: seq<char>)
    requires WellFormed(s)
    ensures
      var dims := SetDimensions(Tokens(s)[0]);
      Decompress(s) == Success(Spelled(s), dims.width, dims.height, FirstSnake(Spelled(s), 0))
  {
    DecodeMeaning(s);
  }

  /** The board cell at (`row`, `col`) is what the runs of row token `row`
      spell in column `col`. */
  lemma {:induction false} CellAt(s: seq<char>, row: nat, col: nat)
    requires Decompress(s).Success?
    requires row < Decompress(s).height && col < Decompress(s).width
    ensures WellFormed(s)
    ensures
      var r := Decompress(s);
      && CellPos(row, col, r.width) < |r.board|
      && RowOk(Tokens(s)[1..][row], r.width)
      && r.board[CellPos(row, col, r.width)] == RowCells(Tokens(s)[1..][row])[col]
  {
    DecodeMeaning(s);
    PictureAt(Tokens(s)[1..], Decompress(s).width, row, col);
  }

  /** No token at all, or a header `set_dimensions` refuses, is a bad
      character. */
  lemma {:induction false} HeaderFailure(s: seq<char>)
    requires |Tokens(s)| == 0 || SetDimensions(Tokens(s)[0]).BadHeader?
    ensures Decompress(s) == Failure(BadChar)
  {
  }

  /** Row tokens that each decode to exactly the width, but too few or too
      many of them, are refused as incorrect dimensions. */
  lemma {:induction false} RowCountFailure(s: seq<char>)
    requires 0 < |Tokens(s)| && SetDimensions(Tokens(s)[0]).Dims?
    requires RowsOk(Tokens(s)[1..], SetDimensions(Tokens(s)[0]).width)
    requires |Tokens(s)| - 1 != SetDimensions(Tokens(s)[0]).height
    ensures Decompress(s) == Failure(IncorrectDimensions)
  {
    var tokens := Tokens(s);
    var height, width := SetDimensions(tokens[0]).height, SetDimensions(tokens[0]).width;
    if height < |tokens| - 1 {
      RowsOkPrefix(tokens[1..], width, height);
    }
    ScanBoardMeaning(tokens[1..], height, width);
    var all := ScanRows(tokens[1..], height, width, 0, Start(height * width));
    if all.RowsStopped? {
      LoopStopped(s, height, width, all.at);
    } else {
      LoopCounted(s, height, width, all.rowCount, all.p);
    }
  }

  /** A row token after the `height` rows the header announces is refused as
      incorrect dimensions before it is read, whatever it holds, once those
      rows each decode to exactly the width. */
  lemma {:induction false} ExtraRowFailure(s: seq<char>, height: nat, width: nat)
    requires 0 < |Tokens(s)| && SetDimensions(Tokens(s)[0]) == Dims(height, width)
    requires height + 1 < |Tokens(s)| && RowsOk(Tokens(s)[1..][..height], width)
    ensures Decompress(s) == Failure(IncorrectDimensions)
  {
    ExtraRowRefused(Tokens(s)[1..], height, width);
    ErrorCodes();
    LoopStopped(s, height, width, ExtraRow);
  }

  /** Rows of the right number and width, but with no snake cell or more than
      one, are refused as a wrong snake count. */
  lemma {:induction false} SnakeTallyFailure(s: seq<char>)
    requires 0 < |Tokens(s)| && SetDimensions(Tokens(s)[0]).Dims?
    requires |Tokens(s)| - 1 == SetDimensions(Tokens(s)[0]).height
    requires RowsOk(Tokens(s)[1..], SetDimensions(Tokens(s)[0]).width)
    requires SnakeCount(Picture(Tokens(s)[1..], SetDimensions(Tokens(s)[0]).width)) != 1
    ensures Decompress(s) == Failure(WrongSnakeCount)
  {
    var tokens := Tokens(s);
    var height, width := SetDimensions(tokens[0]).height, SetDimensions(tokens[0]).width;
    ScanBoardMeaning(tokens[1..], height, width);
    var all := ScanRows(tokens[1..], height, width, 0, Start(height * width));
    LoopTallied(s, height, width, all.p);
  }

  /** The row loop over a board's row tokens, when the first `i` rows each
      decode to exactly the width, reaches row `i` with their picture
      written; that row alone then decides whether the loop stops and why. */
  lemma {:induction false} RowsStopAt(rows: seq<seq<char>>, height: nat, width: nat, i: nat)
    requires i < |rows| && i < height && RowsOk(rows[..i], width)
    ensures |Picture(rows[..i], width)| <= height * width
    ensures
      var total := height * width;
      var row := ScanRow(rows[i], width, total, 0, Reached(Picture(rows[..i], width), total));
      var all := ScanRows(rows, height, width, 0, Start(total));
      && (row.RowStopped? ==> all == RowsStopped(row.at))
      && (row.RowScanned? && row.rowCells != width ==> all == RowsStopped(ShortRow))
  {
    RowsReachRow(rows, height, width, i);
  }

  /** The row loop from the start, after `i` rows that each decode to
      exactly the width, is the loop on row `i` and after with their picture
      written. */
  lemma {:induction false} RowsReachRow(rows: seq<seq<char>>, height: nat, width: nat, i: nat)
    requires i < |rows| && i < height && RowsOk(rows[..i], width)
    ensures |Picture(rows[..i], width)| <= height * width
    ensures
      var total := height * width;
      ScanRows(rows, height, width, 0, Start(total))
        == ScanRows(rows[i..], height, width, i, Reached(Picture(rows[..i], width), total))
    ensures rows[i..][0] == rows[i]
  {
    var total := height * width;
    StartHolds(total);
    HoldsReached(Start(total), [], total);
    ScanRowsSkip(rows, height, width, i);
  }

  /** The first row token the loop does not take decides the error: when
      the rows before it each decode to exactly the width, a row on which
      the run loop stops fails with the error code of the check that stopped
      it. The rows after it do not matter. */
  lemma {:induction false} RowFailure(s: seq<char>, height: nat, width: nat, i: nat)
    requires 0 < |Tokens(s)| && SetDimensions(Tokens(s)[0]) == Dims(height, width)
    requires i + 1 < |Tokens(s)| && i < height && RowsOk(Tokens(s)[1..][..i], width)
    ensures |Picture(Tokens(s)[1..][..i], width)| <= height * width
    ensures
      var row := ScanRow(Tokens(s)[1..][i], width, height * width, 0,
                         Reached(Picture(Tokens(s)[1..][..i], width), height * width));
      row.RowStopped? ==> Decompress(s) == Failure(ErrorOf(row.at))
  {
    var rows := Tokens(s)[1..];
    var total := height * width;
    RowsStopAt(rows, height, width, i);
    var row := ScanRow(rows[i], width, total, 0, Reached(Picture(rows[..i], width), total));
    if row.RowStopped? {
      LoopStopped(s, height, width, row.at);
    }
  }

  /** Likewise, the first row token whose runs fall short of the width,
      after rows that each decode to exactly the width, makes the string
      incorrect dimensions. */
  lemma {:induction false} ShortRowFailure(s: seq<char>, height: nat, width: nat, i: nat)
    requires 0 < |Tokens(s)| && SetDimensions(Tokens(s)[0]) == Dims(height, width)
    requires i + 1 < |Tokens(s)| && i < height && RowsOk(Tokens(s)[1..][..i], width)
    ensures |Picture(Tokens(s)[1..][..i], width)| <= height * width
    ensures
      var row := ScanRow(Tokens(s)[1..][i], width, height * width, 0,
                         Reached(Picture(Tokens(s)[1..][..i], width), height * width));
      row.RowScanned? && row.rowCells != width ==> Decompress(s) == Failure(IncorrectDimensions)
  {
    var rows := Tokens(s)[1..];
    var total := height * width;
    RowsStopAt(rows, height, width, i);
    var row := ScanRow(rows[i], width, total, 0, Reached(Picture(rows[..i], width), total));
    if row.RowScanned? && row.rowCells != width {
      ErrorCodes();
      LoopStopped(s, height, width, ShortRow);
    }
  }

  /** A row token that reads as acceptable runs adding up to more than the
      width, after rows that each decode to exactly the width, makes the
      string incorrect dimensions: the run loop stops on the row-width
      check. */
  lemma {:induction false} WideRowFailure(s: seq<char>, height: nat, width: nat, i: nat)
    requires 0 < |Tokens(s)| && SetDimensions(Tokens(s)[0]) == Dims(height, width)
    requires i + 1 < |Tokens(s)| && i < height && RowsOk(Tokens(s)[1..][..i], width)
    requires ParseRuns(Tokens(s)[1..][i]).Some? && AllValid(ParseRuns(Tokens(s)[1..][i]).value)
    requires width < Width(ParseRuns(Tokens(s)[1..][i]).value)
    ensures Decompress(s) == Failure(IncorrectDimensions)
  {
    var rows := Tokens(s)[1..];
    var pre := Picture(rows[..i], width);
    RowFailure(s, height, width, i);
    WideRowAt(rows[i], height, width, i, pre);
    ErrorCodes();
  }

  /** Likewise a row token that reads as acceptable runs adding up to less
      than the width. */
  lemma {:induction false} NarrowRowFailure(s: seq<char>, height: nat, width: nat, i: nat)
    requires 0 < |Tokens(s)| && SetDimensions(Tokens(s)[0]) == Dims(height, width)
    requires i + 1 < |Tokens(s)| && i < height && RowsOk(Tokens(s)[1..][..i], width)
    requires ParseRuns(Tokens(s)[1..][i]).Some? && AllValid(ParseRuns(Tokens(s)[1..][i]).value)
    requires Width(ParseRuns(Tokens(s)[1..][i]).value) < width
    ensures Decompress(s) == Failure(IncorrectDimensions)
  {
    var rows := Tokens(s)[1..];
    var pre := Picture(rows[..i], width);
    ShortRowFailure(s, height, width, i);
    NarrowRowAt(rows[i], height, width, i, pre);
  }

  /** The error code each check inside the row loop reports. */
  lemma {:induction false} ErrorCodes()
    ensures ErrorOf(MissingCount) == BadChar && ErrorOf(UnknownSymbol) == BadChar
    ensures ErrorOf(SnakeRun) == WrongSnakeCount
    ensures ErrorOf(ExtraRow) == IncorrectDimensions && ErrorOf(ShortRow) == IncorrectDimensions
    ensures ErrorOf(RowOverflow) == IncorrectDimensions && ErrorOf(TotalOverflow) == IncorrectDimensions
  {
  }

  /** When the row loop stops, the decompressor fails with the error code of
      the check that stopped it. */
  lemma {:induction false} LoopStopped(s: seq<char>, height: nat, width: nat, at: Check)
    requires 0 < |Tokens(s)| && SetDimensions(Tokens(s)[0]) == Dims(height, width)
    requires ScanRows(Tokens(s)[1..], height, width, 0, Start(height * width)) == RowsStopped(at)
    ensures Decompress(s) == Failure(ErrorOf(at))
  {
  }

  /** When the row loop gets through the row tokens but counts fewer rows
      than the height, the decompressor fails with incorrect dimensions. */
  lemma {:induction false} LoopCounted(s: seq<char>, height: nat, width: nat, rowCount: nat, p: Progress)
    requires 0 < |Tokens(s)| && SetDimensions(Tokens(s)[0]) == Dims(height, width)
    requires ScanRows(Tokens(s)[1..], height, width, 0, Start(height * width)) == RowsScanned(rowCount, p)
    requires rowCount != height
    ensures Decompress(s) == Failure(IncorrectDimensions)
  {
  }

  /** When the row loop gets through all rows of the board and has filled
      every cell, a snake counter other than one fails with a wrong snake
      count. */
  lemma {:induction false} LoopTallied(s: seq<char>, height: nat, width: nat, p: Progress)
    requires 0 < |Tokens(s)| && SetDimensions(Tokens(s)[0]) == Dims(height, width)
    requires ScanRows(Tokens(s)[1..], height, width, 0, Start(height * width)) == RowsScanned(height, p)
    requires p.pos == height * width && p.snakes != 1
    ensures Decompress(s) == Failure(WrongSnakeCount)
  {
  }
}

=== FILE: runs.dfy ===
/** The run decoder: a row token is a sequence of runs `<symbol><digits>`.
    This module holds the single scanning step the decoder uses, the whole-row
    reading of a token as a list of runs, what a list of runs expands to, and
    the inverse that writes runs out as text. */
module Runs {
  import opened Text
  import opened Cells

  datatype Run = Run(sym: char, count: nat)

  /** One step of the run scanner on the unread part `t` of a row token: any
      character is taken as the symbol, then the maximal digit run after it
      is the count. None when the symbol is not followed by a digit, which
      includes a token ending right after a symbol. Otherwise the run and
      the unread rest, which does not start with a digit. */
  function NextRun(t: seq<char>): (r: Option<(Run, seq<char>)>)
    requires 0 < |t|
    ensures r.None? <==> |t| == 1 || !IsDigit(t[1])
    ensures r.Some? ==>
      var (run, rest) := r.value;
      var j := |t| - |rest|;
      && 2 <= j
      && run.sym == t[0]
      && t[j..] == rest
      && AllDigits(t[1..j])
      && run.count == Value(t[1..j])
      && (|rest| == 0 || !IsDigit(rest[0]))
  {
    var j := DigitRunEnd(t, 1);
    if j == 1 then None
    else Some((Run(t[0], Value(t[1..j])), t[j..]))
  }

  /** The whole token read as runs, or None when some symbol lacks its
      count. */
  function ParseRuns(t: seq<char>): Option<seq<Run>>
    decreases |t|
  {
    if |t| == 0 then Some([])
    else match NextRun(t)
      case None => None
      case Some((run, rest)) =>
        match ParseRuns(rest)
        case None => None
        case Some(runs) => Some([run] + runs)
  }

  /** Every run names a cell kind. */
  predicate Known(runs: seq<Run>) {
    forall k :: 0 <= k < |runs| ==> Kind(runs[k].sym).Some?
  }

  /** A run the cell filler accepts: a known kind, and a snake run exactly
      one cell long. */
  predicate ValidRun(run: Run) {
    Kind(run.sym).Some? && (run.sym == 'S' ==> run.count == 1)
  }

  predicate AllValid(runs: seq<Run>) {
    forall k :: 0 <= k < |runs| ==> ValidRun(runs[k])
  }

  /** The number of cells the runs cover. */
  function Width(runs: seq<Run>): nat
    decreases |runs|
  {
    if |runs| == 0 then 0 else runs[0].count + Width(runs[1..])
  }

  /** The cells the runs stand for, in order. */
  function Expand(runs: seq<Run>): (cells: seq<Cell>)
    requires Known(runs)
    ensures |cells| == Width(runs)
    decreases |runs|
  {
    if |runs| == 0 then []
    else seq(runs[0].count, _ => Kind(runs[0].sym).value) + Expand(runs[1..])
  }

  /** The text of one run. */
  function EncodeRun(run: Run): seq<char> {
    [run.sym] + Show(run.count)
  }

  /** The text of a row of runs. */
  function EncodeRuns(runs: seq<Run>): seq<char>
    decreases |runs|
  {
    if |runs| == 0 then [] else EncodeRun(runs[0]) + EncodeRuns(runs[1..])
  }

  /** Symbols the encoder may write: a digit symbol would be swallowed by
      the count before it. */
  predicate NoDigitSymbols(runs: seq<Run>) {
    forall k :: 0 <= k < |runs| ==> !IsDigit(runs[k].sym)
  }

  /** Scanning one written run off the front of a text whose rest does not
      start with a digit gives the run and the rest back. */
  lemma {:induction false} NextRunOfEncoded(run: Run, rest: seq<char>)
    requires |rest| == 0 || !IsDigit(rest[0])
    ensures NextRun(EncodeRun(run) + rest) == Some((run, rest))
  {
    var t := EncodeRun(run) + rest;
    var d := Show(run.count);
    assert t == [run.sym] + (d + rest);
    DigitRunEndAt(t, 1, 1 + |d|);
    assert t[1..1 + |d|] == d;
    assert t[1 + |d|..] == rest;
  }

  /** The run codec round trip: reading back written runs gives the runs. */
  lemma {:induction false} ParseRunsOfEncoded(runs: seq<Run>)
    requires NoDigitSymbols(runs)
    ensures ParseRuns(EncodeRuns(runs)) == Some(runs)
    decreases |runs|
  {
    if |runs| > 0 {
      var rest := EncodeRuns(runs[1..]);
      assert NoDigitSymbols(runs[1..]) by {
        forall k | 0 <= k < |runs| - 1
          ensures !IsDigit(runs[1..][k].sym)
        {
          assert runs[1..][k] == runs[k + 1];
        }
      }
      if |runs| > 1 {
        assert rest[0] == runs[1].sym;
      }
      var t := EncodeRuns(runs);
      assert t == EncodeRun(runs[0]) + rest;
      NextRunOfEncoded(runs[0], rest);
      ParseRunsOfEncoded(runs[1..]);
      assert ParseRuns(t) == Some([runs[0]] + runs[1..]);
      assert [runs[0]] + runs[1..] == runs;
    }
  }

  /** Written runs contain only their symbols and digits. */
  lemma {:induction false} EncodeRunsHasNo(runs: seq<Run>, c: char)
    requires !IsDigit(c)
    requires forall k :: 0 <= k < |runs| ==> runs[k].sym != c
    ensures c !in EncodeRuns(runs)
    decreases |runs|
  {
    if |runs| > 0 {
      ShowHasNo(runs[0].count, c);
      assert forall k :: 0 <= k < |runs| - 1 ==> runs[1..][k].sym != c by {
        forall k | 0 <= k < |runs| - 1
          ensures runs[1..][k].sym != c
        {
          assert runs[1..][k] == runs[k + 1];
        }
      }
      EncodeRunsHasNo(runs[1..], c);
    }
  }

  /** How many cells of a board are snake cells. */
  function SnakeCount(b: seq<Cell>): nat
    decreases |b|
  {
    if |b| == 0 then 0 else (if b[0] == Snake then 1 else 0) + SnakeCount(b[1..])
  }

  lemma {:induction false} SnakeCountAppend(a: seq<Cell>, b: seq<Cell>)
    ensures SnakeCount(a + b) == SnakeCount(a) + SnakeCount(b)
    decreases |a|
  {
    if |a| > 0 {
      assert (a + b)[1..] == a[1..] + b;
      SnakeCountAppend(a[1..], b);
    } else {
      assert a + b == b;
    }
  }

  lemma {:induction false} SnakeCountOfRun(n: nat, c: Cell)
    ensures SnakeCount(seq(n, _ => c)) == if c == Snake then n else 0
    decreases n
  {
    if n > 0 {
      assert seq(n, _ => c)[1..] == seq(n - 1, _ => c);
      SnakeCountOfRun(n - 1, c);
    }
  }
}

=== FILE: text.dfy ===
/** Character-level scanning shared by the header parser, the tokenizer and
    the run scanner: decimal digits, the numbers they spell, and searching a
    string for a character. */
module Text {

  predicate IsDigit(c: char) {
    '0' <= c <= '9'
  }

  predicate AllDigits(d: seq<char>) {
    forall k :: 0 <= k < |d| ==> IsDigit(d[k])
  }

  /** A digit string of zeros only, the empty one included. */
  predicate AllZeros(d: seq<char>)
    decreases |d|
  {
    |d| == 0 || (d[|d| - 1] == '0' && AllZeros(d[..|d| - 1]))
  }

  function DigitValue(c: char): (v: nat)
    requires IsDigit(c)
    ensures v < 10
  {
    c as int - '0' as int
  }

  /** The digit character for a value below ten; the inverse of DigitValue. */
  function DigitChar(v: nat): (c: char)
    requires v < 10
    ensures IsDigit(c) && DigitValue(c) == v
  {
    ('0' as int + v) as char
  }

  /** The number a string of decimal digits spells, most significant digit
      first. This is what `atoi` computes on the run scanner's digit buffer
      and what `strtol` computes on a digit prefix. */
  function Value(d: seq<char>): (v: nat)
    requires AllDigits(d)
    ensures v == 0 <==> AllZeros(d)
    decreases |d|
  {
    if |d| == 0 then 0
    else
      Value(d[..|d| - 1]) * 10 + DigitValue(d[|d| - 1])
  }

  /** The shortest decimal spelling of `n`; Value reads it back. */
  function Show(n: nat): (d: seq<char>)
    ensures 0 < |d| && AllDigits(d)
    ensures Value(d) == n
    decreases n
  {
    if n < 10 then [DigitChar(n)]
    else
      var d := Show(n / 10) + [DigitChar(n % 10)];
      assert d[..|d| - 1] == Show(n / 10);
      d
  }

  /** One past the end of the maximal run of digits that starts at `i`. */
  function DigitRunEnd(s: seq<char>, i: nat): (j: nat)
    requires i <= |s|
    ensures i <= j <= |s|
    ensures forall k :: i <= k < j ==> IsDigit(s[k])
    ensures j < |s| ==> !IsDigit(s[j])
    decreases |s| - i
  {
    if i < |s| && IsDigit(s[i]) then DigitRunEnd(s, i + 1) else i
  }

  /** `strtol(s, NULL, 10)` for the inputs this model admits: the value of
      the maximal leading digit prefix, 0 when `s` does not start with a
      digit. */
  function LeadingNumber(s: seq<char>): (n: nat)
    ensures (|s| == 0 || !IsDigit(s[0])) ==> n == 0
    ensures n == 0 <==> AllZeros(s[..DigitRunEnd(s, 0)])
  {
    Value(s[..DigitRunEnd(s, 0)])
  }

  /** The first index at or after `i` holding `c`, or |s| when there is none
      (the shape of `strchr` and of `strtok`'s delimiter search). */
  function IndexOf(s: seq<char>, c: char, i: nat): (j: nat)
    requires i <= |s|
    ensures i <= j <= |s|
    ensures forall k :: i <= k < j ==> s[k] != c
    ensures j < |s| ==> s[j] == c
    decreases |s| - i
  {
    if i < |s| && s[i] != c then IndexOf(s, c, i + 1) else i
  }

  /** IndexOf finds the first occurrence. */
  lemma {:induction false} IndexOfAt(s: seq<char>, c: char, i: nat, j: nat)
    requires i <= j < |s| && s[j] == c
    requires forall k :: i <= k < j ==> s[k] != c
    ensures IndexOf(s, c, i) == j
    decreases j - i
  {
    if i < j {
      IndexOfAt(s, c, i + 1, j);
    }
  }

  /** A digit run is measured exactly by DigitRunEnd when it is followed by
      the end of the string or a non-digit. */
  lemma {:induction false} DigitRunEndAt(s: seq<char>, i: nat, j: nat)
    requires i <= j <= |s|
    requires forall k :: i <= k < j ==> IsDigit(s[k])
    requires j == |s| || !IsDigit(s[j])
    ensures DigitRunEnd(s, i) == j
    decreases j - i
  {
    if i < j {
      DigitRunEndAt(s, i + 1, j);
    }
  }

  /** Reading a number back: the leading number of its spelling followed by
      anything that does not start with a digit is the number itself. */
  lemma {:induction false} LeadingNumberOfShow(n: nat, rest: seq<char>)
    requires |rest| == 0 || !IsDigit(rest[0])
    ensures DigitRunEnd(Show(n) + rest, 0) == |Show(n)|
    ensures LeadingNumber(Show(n) + rest) == n
  {
    var s := Show(n) + rest;
    DigitRunEndAt(s, 0, |Show(n)|);
    assert s[..|Show(n)|] == Show(n);
  }

  /** A spelled-out number holds no character outside '0'..'9'. */
  lemma {:induction false} ShowHasNo(n: nat, c: char)
    requires !IsDigit(c)
    ensures c !in Show(n)
  {
  }
}

=== FILE: tokens.dfy ===
/** Splitting the compressed board string into tokens the way repeated
    `strtok(…, "|")` calls do: separators delimit tokens, runs of separators
    collapse, and a leading or trailing separator yields no empty token. */
module Tokenize {
  import opened Text

  const Sep: char := '|'

  /** The tokens `strtok` hands out, in order. */
  function Tokens(s: seq<char>): (ts: seq<seq<char>>)
    ensures ProperTokens(ts)
    ensures Concat(ts) == WithoutSeps(s)
    decreases |s|
  {
    if |s| == 0 then []
    else if s[0] == Sep then Tokens(s[1..])
    else
      var j := IndexOf(s, Sep, 0);
      TokenContents(s, j);
      [s[..j]] + Tokens(s[j..])
  }

  /** All tokens laid end to end. */
  function Concat(ts: seq<seq<char>>): seq<char>
    decreases |ts|
  {
    if |ts| == 0 then [] else ts[0] + Concat(ts[1..])
  }

  /** The input with every separator deleted. */
  function WithoutSeps(s: seq<char>): seq<char>
    decreases |s|
  {
    if |s| == 0 then []
    else if s[0] == Sep then WithoutSeps(s[1..])
    else [s[0]] + WithoutSeps(s[1..])
  }

  /** A separator-free prefix survives WithoutSeps unchanged. */
  lemma {:induction false} TokenContents(s: seq<char>, j: nat)
    requires j <= |s|
    requires Sep !in s[..j]
    ensures WithoutSeps(s) == s[..j] + WithoutSeps(s[j..])
    decreases j
  {
    if j > 0 {
      assert s[0] == s[..j][0];
      assert s[1..][..j - 1] == s[1..j];
      TokenContents(s[1..], j - 1);
      assert s[1..][j - 1..] == s[j..];
    }
  }

  /** A stretch without separators is one token, or none when it is empty. */
  lemma {:induction false} TokensOfPiece(t: seq<char>)
    requires Sep !in t
    ensures Tokens(t) == (if |t| == 0 then [] else [t])
  {
    if |t| > 0 {
      var j := IndexOf(t, Sep, 0);
      assert j == |t|;
      assert t[..j] == t && t[j..] == [];
    }
  }

  /** A separator splits the token list: the tokens of `a|b` are the tokens
      of `a` followed by those of `b`, so runs of separators and separators
      at either end contribute no empty token. */
  lemma {:induction false} TokensSplit(a: seq<char>, b: seq<char>)
    ensures Tokens(a + [Sep] + b) == Tokens(a) + Tokens(b)
    decreases |a|
  {
    var s := a + [Sep] + b;
    if |a| == 0 {
      assert s == [Sep] + b && s[1..] == b;
    } else if a[0] == Sep {
      assert s[0] == Sep && s[1..] == a[1..] + [Sep] + b;
      TokensSplit(a[1..], b);
    } else {
      var ja := IndexOf(a, Sep, 0);
      var head, tail := a[..ja], a[ja..];
      assert a == head + tail && 0 < |head|;
      assert Sep !in head by {
        forall k | 0 <= k < |head| ensures head[k] != Sep {
          assert head[k] == a[k];
        }
      }
      TokensOfToken(head, tail);
      assert s == head + (tail + [Sep] + b);
      assert (tail + [Sep] + b)[0] == Sep;
      TokensOfToken(head, tail + [Sep] + b);
      TokensSplit(tail, b);
    }
  }

  /** The inverse direction: each token preceded by one separator. */
  function Prefixed(ts: seq<seq<char>>): seq<char>
    decreases |ts|
  {
    if |ts| == 0 then [] else [Sep] + ts[0] + Prefixed(ts[1..])
  }

  /** Every token is non-empty and holds no separator. */
  predicate ProperTokens(ts: seq<seq<char>>) {
    forall k :: 0 <= k < |ts| ==> 0 < |ts[k]| && Sep !in ts[k]
  }

  /** Splitting a token glued to a separator-led tail gives the token back
      first. */
  lemma {:induction false} TokensOfToken(t: seq<char>, rest: seq<char>)
    requires 0 < |t| && Sep !in t
    requires |rest| == 0 || rest[0] == Sep
    ensures Tokens(t + rest) == [t] + Tokens(rest)
  {
    var s := t + rest;
    var j := IndexOf(s, Sep, 0);
    assert forall k :: 0 <= k < |t| ==> s[k] == t[k];
    if |rest| > 0 {
      assert s[|t|] == Sep;
    }
    assert j == |t|;
    assert s[..j] == t;
    assert s[j..] == rest;
  }

  /** Tokenizing re-joined tokens gives them back. */
  lemma {:induction false} TokensOfPrefixed(ts: seq<seq<char>>)
    requires ProperTokens(ts)
    ensures Tokens(Prefixed(ts)) == ts
    decreases |ts|
  {
    if |ts| > 0 {
      var tail := Prefixed(ts[1..]);
      assert Prefixed(ts) == [Sep] + (ts[0] + tail);
      assert (Prefixed(ts))[1..] == ts[0] + tail;
      if |ts| > 1 {
        assert tail == [Sep] + ts[1] + Prefixed(ts[2..]);
      }
      TokensOfToken(ts[0], tail);
      assert ProperTokens(ts[1..]) by {
        forall k | 0 <= k < |ts| - 1
          ensures 0 < |ts[1..][k]| && Sep !in ts[1..][k]
        {
          assert ts[1..][k] == ts[k + 1];
        }
      }
      TokensOfPrefixed(ts[1..]);
    }
  }

  /** The whole board string: a header token and the row tokens after it. */
  lemma {:induction false} TokensOfJoined(head: seq<char>, rows: seq<seq<char>>)
    requires 0 < |head| && Sep !in head
    requires ProperTokens(rows)
    ensures Tokens(head + Prefixed(rows)) == [head] + rows
  {
    TokensOfToken(head, Prefixed(rows));
    TokensOfPrefixed(rows);
  }
}
